=== FILE: README.md ===
# ATGameStore backend: a Dafny model of its core

ATGameStore sells game accounts. A buyer registers an address through a
one-time-code (OTP) flow, orders a product, pays by bank transfer, and, when
the payment gateway's webhook confirms the transfer, receives the product's
decrypted account credentials by e-mail. The product is then marked
`out_of_stock`. Owners manage the catalogue behind bearer-token
authentication and a role gate.

This project models that core as pure functions over immutable stores:

- `Documents`: the document store's values.
  - Documents are field maps and collections are maps keyed by natural-number ids.
  - An equality query's first match is the least matching id.
  - Covers JavaScript truthiness and the `{ id, ...data }` spread, where the data's own fields win.
- `Text`: the string primitives the code relies on.
  - `startsWith`, `endsWith`, `includes`, the `\s` class and `trim() === ""`.
  - Decimal rendering of naturals.
  - The e-mail pattern `^[^\s@]+@[^\s@]+\.[^\s@]+$`, both as a predicate and as a one-pass scanner proved equal to it.
- `OtpService` and `AuthController`: the registration state machine.
  - A record per address, moving pending → verified → completed.
  - Expiry after 10 minutes, a 60-second resend cooldown, and a budget of three wrong codes.
  - The `register` dispatch on the address's status.
- `PaymentService` and `PaymentController`: the order lifecycle.
  - Order-code generation, order creation behind its validations, and the one-way `pending → completed` webhook transition.
  - The four-step fulfilment pipeline: fetch with credentials, decrypt, mail, mark sold out.
  - The mapping of error messages to HTTP statuses.
- `ProductService` and `ProductController`: product lookups and the catalogue endpoints.
  - Lookups by `productCode`, with and without the `gameAccount` credentials.
  - The availability gate and the stock-status write.
  - Add / update / delete, which keep truthy product codes unique.
- `CryptoService`: the control flow around credential decryption. The cipher itself is a parameter.
- `AuthMiddleware`: the bearer-header check, the `role` / `emailVerified` defaults, and the owner and verified gates.

Everything outside the process becomes a parameter:

- the clock is `now` in milliseconds;
- `Math.random()` is a real `r` in `[0, 1)`;
- whether the mail transport accepts a message is `mailOk`;
- AES decryption is `aes`;
- ID-token verification is `verify`;
- the id the store assigns to a new document is `freshId`.

An absent request field and the empty string are both modelled as `""`.
JavaScript treats both as falsy, and the handlers that check a field test only falsiness. Where a handler passes an unchecked field on to a store query, the two differ; those cases are listed under "## Left out".

Three behaviours are worth stating on their own terms:

- **Registering twice within the cooldown.** A second `register` for a still-pending address calls `resendOTP`. Within 60 seconds of the first code, that call throws the cooldown error, and the handler answers it with a 500 and writes nothing. It does not answer `isResend = true`. `AuthController.RegisterTwiceWithinCooldown` states this.
- **Webhook deliveries.** The order is read and then written, without a transaction. The model proves that a payment is confirmed and fulfilled at most once over sequential deliveries (`PaymentService.AtMostOneConfirmation`, `PaymentController.FulfilmentAtMostOnce`). Interleaved deliveries are not modelled.
- **Order creation for an unknown product.** The order handler maps errors exactly as the code does, so an unknown product is answered 500 (`PaymentController.UnknownProductAnswered500`). The corrected mapping is modelled separately; see "## Findings".

## Model

| member | source | states |
|---|---|---|
| Text.ScanEmail | src/controllers/authController.js:21-28 | the one-pass scan accepts exactly the strings matching `^[^\s@]+@[^\s@]+\.[^\s@]+$`, stated independently as a predicate over positions of the single `@` and a later `.` |
| Documents.FirstWhere | src/services/productService.js:27-36 | a query's first document is a match, has the least id among matches, and is absent exactly when nothing matches |
| Documents.FirstWhereIgnoresOtherFields | src/services/productService.js:27-36 | two collections that differ only in one field return the same first match for an equality query on another field |
| OtpService.GenerateOtp | src/services/otpService.js:40-42 | the code is six decimal digits whose value lies in [100000, 999999] |
| OtpService.SaveOtp | src/services/otpService.js:72-85 | the record for the address is replaced by one with the new code and name, zero attempts, neither verified nor completed, expiring 10 minutes after now; other addresses are untouched |
| OtpService.VerifyOtp | src/services/otpService.js:88-125 | success exactly when a record exists, is not past expiry, has fewer than 3 attempts and holds the code; expired or exhausted records are deleted; a wrong code only increments attempts; success marks verified at now |
| OtpService.GetEmailStatus | src/services/otpService.js:128-185 | each status is characterised in both directions: users first, then no record, completed, verified, pending until expiry with whole remaining seconds, else expired |
| OtpService.IsEmailVerified | src/services/otpService.js:188-198 | true exactly when the address is a registered user or its record is verified or completed, independent of the clock |
| OtpService.ResendOtp | src/services/otpService.js:201-238 | refuses without a record, and within 60 s of the last code with the countdown it reports (at least 1); otherwise a new 6-digit code, restarted clock and zero attempts, keeping the name and the verified/completed flags |
| OtpService.CompleteRegistration | src/services/otpService.js:241-247 | fails without a record; otherwise sets completed at now and keeps the record and every other one |
| OtpService.CleanupOtp | src/services/otpService.js:250-253 | removes exactly the address's record |
| OtpService.GetResendCountdown | src/services/otpService.js:256-273 | never negative, 0 without a record, at most 60, and 0 exactly when 60 s have passed since the code was issued |
| OtpService.ResendRefusedIffCountdown | src/services/otpService.js:201-238 | a resend is refused for the cooldown exactly when the countdown endpoint reports a positive value, and the refusal carries that value |
| OtpService.WrongCodesOnlyCount | src/services/otpService.js:109-118 | a run of in-time wrong codes within the budget changes nothing but the attempt counter, which grows by one per code |
| OtpService.FourthAttemptLocksOut | src/services/otpService.js:103-108 | after three wrong codes even the right code is refused with too-many-attempts, the record is deleted and the address is available again |
| OtpService.CorrectCodeVerifies | src/services/otpService.js:119-124 | the accepted code moves a non-completed record to verified_pending, which the verified check then reports |
| OtpService.CompleteRegistrationIdempotent | src/services/otpService.js:241-247 | completing twice equals completing once, and the address stays completed at every later time |
| AuthController.RegisterInputError | src/controllers/authController.js:14-35 | the request passes exactly when both fields are present, the e-mail matches the pattern and the user name has at least 3 characters; otherwise it reports the first failing check: missing fields, then a bad e-mail, then a short user name |
| AuthController.Register | src/controllers/authController.js:9-97 | malformed requests get 400 with no write; registered or completed addresses get "in use" and in-progress ones "in progress" with no write; pending addresses get a resend whose errors are 500s; expired records are deleted and replaced; only the request's address is written |
| AuthController.VerifyOtpRequest | src/controllers/authController.js:100-127 | 400 when a field is missing; otherwise success exactly when the service accepts the code, returning the stored user name, with every service error a 400 |
| AuthController.ResendOtpRequest | src/controllers/authController.js:129-154 | 400 without an e-mail; otherwise the service's outcome, with every service error a 400 |
| AuthController.CheckVerification | src/controllers/authController.js:156-181 | 400 without an e-mail; otherwise whether the address is a user or its record is verified or completed |
| AuthController.ResendCountdownRequest | src/controllers/authController.js:183-208 | 400 without an e-mail; otherwise the service's countdown, which is non-negative and 0 without a record |
| AuthController.CompleteRegistrationRequest | src/controllers/authController.js:210-247 | succeeds exactly for a present, verified address that has a record; unverified is a 400; verified only through users is a 500 because there is no record to update |
| AuthController.RegisterAvailableCreatesPending | src/controllers/authController.js:80-89 | registering an unused address answers isResend = false and leaves a pending record under the given name for the whole lifetime |
| AuthController.RegisterTwiceWithinCooldown | src/controllers/authController.js:64-71 | a second registration within 60 s is refused with the cooldown error as a 500 and writes nothing |
| AuthController.RegisterAgainAfterCooldownResends | src/controllers/authController.js:64-71 | a second registration after the cooldown answers isResend = true, adds no record and keeps the first user name |
| ProductService.FindByCode | src/services/productService.js:27-35 | the first product holding the code, by least id, or none exactly when no product holds it |
| ProductService.GetProductWithCredentials | src/services/productService.js:70-121 | fails with "Product <code> not found" exactly when no product holds the code; otherwise the first holder's fields plus its id, which is the document id unless the data carries its own `id` |
| ProductService.GetProduct | src/services/productService.js:14-67 | fails exactly when the credentialed lookup fails; otherwise the same record with `gameAccount` removed and every other field kept |
| ProductService.MarkedProductUnavailable | src/services/productService.js:148-201 | marking a status other than in_stock succeeds exactly when the code is held, leaves the lookups finding the same product, and makes its snapshot unavailable |
| ProductService.StrippedProductHasNoCredentials | src/services/productService.js:57-62 | the stripped lookup never yields credentials |
| ProductService.LookupsAgreeWithoutCredentials | src/services/productService.js:14-121 | when no product stores credentials the two lookups coincide |
| ProductService.UpdateProductStatus | src/services/productService.js:148-201 | fails when no product holds the code; otherwise only the first holder's status and updatedAt change |
| CryptoService.DecryptGameCredential | src/services/cryptoService.js:6-38 | missing, falsy or blank data decrypts to "" with no other check; any other data decrypts to a non-empty result, which needs string data, a set key, key id "v1" and the cipher's non-empty plaintext; every failure is the single "Failed to decrypt game credentials" error |
| CryptoService.DecryptGameAccount | src/services/cryptoService.js:40-55 | a missing blob is "Game account data not found"; otherwise it succeeds exactly when both fields decrypt under the blob's one key id |
| CryptoService.WrongKeyVersionFails | src/services/cryptoService.js:21-23 | with a key id other than "v1" a blob with a non-blank user name never decrypts, whatever the cipher |
| PaymentService.RandomOrderCode | src/services/paymentService.js:27-29 | "ORD" followed by seven digits with a value in [1000000, 9999999] |
| PaymentService.FreeOrderNumberExists | src/services/paymentService.js:31-44 | while fewer codes are in use than the generator can produce, some code it can produce is free |
| PaymentService.GenerateUniqueOrderCode | src/services/paymentService.js:31-44 | returns a well-shaped code held by no stored order |
| PaymentService.CreationError | src/services/paymentService.js:83-96 | creation passes exactly when code, e-mail and amount are truthy, the e-mail matches the pattern and the product is available; otherwise it reports the first failing check: missing fields, then a bad e-mail, then an unavailable product, and never "Order not found" |
| PaymentService.ProcessOrderCreation | src/services/paymentService.js:76-139 | every validation runs before the only write; failure persists nothing; success adds exactly one pending order with a 15-minute expiry and the product's id and name, and the receipt's transfer content and QR description are the order code |
| PaymentService.FindOrderByCode | src/services/paymentService.js:61-69 | none exactly when no order has the code; otherwise the least-id order holding it, which with unique codes is the only one |
| PaymentService.GetOrderStatus | src/services/paymentService.js:170-176 | "Order not found" exactly when no order has the code; otherwise the stored order that `findOrderByCode` selects |
| PaymentService.ProcessWebhook | src/services/paymentService.js:142-167 | unknown code is "Order not found" with no write; a completed order is "already processed" with no write, reporting the order `findOrderByCode` selects; a pending order becomes completed with paidAt, transactionId (or null) and gateway (or "manual"), and nothing else changes |
| PaymentService.CreationPreservesInvariants | src/services/paymentService.js:98-120 | creation keeps order codes unique and every order's id, 15-minute expiry and payment-iff-completed shape |
| PaymentService.WebhookPreservesInvariants | src/services/paymentService.js:158-164 | the webhook keeps the same invariants and changes no order's code |
| PaymentService.WebhookKeepsLookups | src/services/paymentService.js:146-164 | after a webhook every lookup by code finds the same order as before |
| PaymentService.CompletedOrderAbsorbsDeliveries | src/services/paymentService.js:153-156 | once an order is completed, any further deliveries for its code change nothing and confirm nothing |
| PaymentService.AtMostOneConfirmation | src/services/paymentService.js:142-167 | any sequence of deliveries for one code completes its order at most once |
| PaymentService.SecondDeliveryIsNoOp | src/services/paymentService.js:142-167 | for a pending order the first delivery confirms and a second one reports "already processed" and changes nothing |
| PaymentController.UnknownProductAnswered500 | src/controllers/paymentController.js:20-39 | as written, an order for the unknown product SKU1 is answered 500 "Product SKU1 not found" and nothing is stored |
| PaymentController.ProductMissMapsTo500 | src/controllers/paymentController.js:142-154 | as written, the product lookup's miss message for SKU1 is answered 500 |
| PaymentController.ErrorStatusCodeFixed | src/controllers/paymentController.js:142-154 | agrees with the as-written mapping on every message that is not a product-miss message; 404 exactly for non-validation messages containing "Product not found" or shaped "Product <code> not found" |
| PaymentController.ProductMissMapsTo404 | src/services/productService.js:31-33 | every product-lookup miss message has the miss shape and, unless it spells out a validation text, is answered 404 |
| PaymentController.CreationErrorsMapTo400 | src/controllers/paymentController.js:142-149 | each creation validation failure is answered 400, by the mapping as written and by the corrected one |
| PaymentController.LookupErrorStatus | src/controllers/paymentController.js:70 | 404 exactly for "Order not found", 500 otherwise |
| PaymentController.CreateOrderWith | src/controllers/paymentController.js:15-41 | a product miss is answered with the miss message, its status mapped as written, and no write; otherwise the creation's outcome and writes, with validation failures as 400 |
| PaymentController.CreateOrder | src/controllers/paymentController.js:15-41 | keeps order codes unique and orders well formed; failures store nothing; on success adds exactly the new pending order, whose fresh code is on the receipt; succeeds exactly when the product is found and passes validation; a product miss is answered with the message-mapped status and a validation error with 400; the response is the request handled under some fresh, well-formed code |
| PaymentController.CreationIgnoresCredentials | src/controllers/paymentController.js:19-27 | order creation gives the same answer for catalogues that differ only in stored credentials |
| PaymentController.GetOrderStatusRequest | src/controllers/paymentController.js:118-139 | 404 "Order not found" exactly when no order has the code; otherwise the stored order `findOrderByCode` selects |
| PaymentController.ProcessOrderFulfillment | src/controllers/paymentController.js:79-114 | the steps run in pipeline order; a lookup miss, a decryption failure or a refused mail is the run's error and stops it; when all succeed the run succeeds, the mail with the decrypted credentials goes to the order's address, and the product is marked out_of_stock; the catalogue changes only in the last step |
| PaymentController.HandleWebhook | src/controllers/paymentController.js:44-76 | the order store is the webhook transition's; a redelivery for a completed order is a 200 "Order already processed" with no fulfilment; fulfilment runs exactly when the transition confirms a payment, and it is the fulfilment pipeline on the confirmed order and its product code; unknown codes are 404; a failing fulfilment is a 500 |
| PaymentController.FulfilmentMessagesAreNotOrderNotFound | src/controllers/paymentController.js:68-70 | no fulfilment failure is mistaken for "Order not found" |
| PaymentController.FailedFulfilmentKeepsOrderCompleted | src/controllers/paymentController.js:50-65 | after a delivery for a known code the order is completed, even when fulfilment then fails |
| PaymentController.FulfilmentsAreConfirmations | src/controllers/paymentController.js:56-65 | over any sequence of deliveries, fulfilment runs exactly as often as the order service confirms a payment |
| PaymentController.FulfilledProductCannotBeOrderedAgain | src/controllers/paymentController.js:104-109 | after a successful fulfilment the product is still found but unavailable, so a further order for its code is refused (with 400 "not available" when the request is otherwise valid) and stores nothing |
| PaymentController.FulfilmentAtMostOnce | src/controllers/paymentController.js:44-76 | sequential deliveries for one order run decryption, the credentials mail and the stock write at most once |
| ProductController.AddProduct | src/controllers/productController.js:197-241 | 400 exactly when name, productCode or price is missing or falsy; 400 exactly when the code is already held; 201 exactly when the fields are supplied and the code is unused, storing every body field plus id, createdBy and createdAt == updatedAt == now under a fresh id; refusals write nothing |
| ProductController.AddPreservesUniqueCodes | src/controllers/productController.js:209-233 | adding keeps every truthy product code held by at most one product |
| ProductController.UpdateProduct | src/controllers/productController.js:265-301 | 404 exactly for an unknown id; 400 exactly when a truthy new code is held by another product; otherwise body fields overwrite, unsupplied fields stay, updatedAt is now, and no other product changes |
| ProductController.UpdatePreservesUniqueCodes | src/controllers/productController.js:276-301 | updating keeps truthy product codes unique, including updates that blank or omit the code |
| ProductController.ResubmittingOwnCodeSucceeds | src/controllers/productController.js:283-286 | re-submitting a product's own code is not a duplicate |
| ProductController.DeleteProduct | src/controllers/productController.js:338-358 | 404 exactly for an unknown id; otherwise exactly that product is removed and its id and name are returned |
| ProductController.DeletePreservesUniqueCodes | src/controllers/productController.js:338-350 | deleting keeps truthy product codes unique |
| ProductController.GetProductByCode | src/controllers/productController.js:124-141 | 404 exactly when no product holds the code; otherwise the first holder with its id and credentials |
| ProductController.LookupByCodeFindsTheHolder | src/controllers/productController.js:136-141 | with unique codes, whichever product holds a non-empty code is the one the lookup returns |
| ProductController.AddThenLookup | src/controllers/productController.js:222-233 | a product just added is what the lookup by its code returns |
| AuthMiddleware.TextBefore | src/middleware/auth.js:16 | the extracted token is the longest prefix containing no occurrence of the separator, ending at the separator or at the end |
| AuthMiddleware.BearerTokenExtracted | src/middleware/auth.js:16 | for "Bearer " plus a token without that separator, exactly the token is handed to verification |
| AuthMiddleware.VerifyFirebaseToken | src/middleware/auth.js:5-84 | 401 "No token provided" exactly without a bearer header; 401 "Invalid token" exactly when verification rejects; 401 "User not found" exactly when a verified uid has no user record; success exactly when the uid has a user record; role defaults to "user" and emailVerified to false when falsy |
| AuthMiddleware.RequireOwner | src/middleware/auth.js:86-102 | passes exactly for a user whose role is "owner"; 401 exactly without a user, 403 otherwise |
| AuthMiddleware.RequireVerified | src/middleware/auth.js:104-120 | passes exactly for a user with a truthy emailVerified; 401 exactly without a user, 403 otherwise |
| AuthMiddleware.OwnerRoutesAdmitOnlyOwners | src/middleware/auth.js:61-102 | authentication followed by the owner gate admits exactly the requests whose token verifies and whose stored record has role "owner" |
| AuthMiddleware.VerifiedRoutesAdmitOnlyVerified | src/middleware/auth.js:61-120 | authentication followed by the verified gate admits exactly the requests whose token verifies and whose stored record has a truthy emailVerified |

## Left out

- E-mail content and transport (`sendOTPEmail`, `emailService`): a sent message is the `Mail` value or the `mailOk` flag. The mail error's text is a placeholder, because the transport's messages are not part of this model.
- The two store back-ends (admin and client SDK paths): both issue the same queries and writes, so the model has one store. The "Firebase not initialized" guards are left out with them.
- AES decryption and UTF-8 decoding: these are the `aes` parameter.
- JWT verification and the development-mode base64 payload decoding: these are the `verify` parameter.
- Concurrency: the model applies requests one at a time. Two webhook deliveries that interleave between the read and the write are not modelled.
- Timestamps: orders and products store ISO strings (`toISOString()`), while the OTP records store `Date` objects, which the store keeps as Timestamps. Both are modelled as numeric milliseconds. The QR URL's environment-configured parts and the bank account fields are also left out.
- Request values of unexpected types: non-string fields, string amounts passed through `parseInt`, and the raw-body JSON re-parse in `addProduct`. A body that is not an object is treated as having no fields.
- An absent `productCode` in `createOrder`: the store rejects a query on an undefined value, but the model reads it as the empty string.
- PaymentController.HandleWebhook: an absent `code` is read as the empty string and answered 404 "Order not found". The source passes `undefined` to the order query; the store refuses it, and the handler's catch answers 500 with the store's message, which is not part of this model.
- Field-path keys in `updateProduct` bodies and the store's refusal of `undefined` field values.
- User-name length counts sequence elements, whereas JavaScript counts UTF-16 code units.
- `getAllProductsWithCredentials`, `getProductByIdWithCredentials`, `logProductInfo`, the image/upload services, routing and rate limiting: these are plain reads, logging, or outside the core.
- PaymentService.GenerateUniqueOrderCode: requires fewer than 9,000,000 codes in use. The source loops forever once the space is exhausted, and each random draw is modelled as a choice among the free codes.
- PaymentController.CreateOrder: draws the code before validation, whereas the source draws it after. Generation only reads, so the outcome is the same.

## Findings

| source | as written | input that shows it | evidently intended | confidence | as-written member | corrected member |
|---|---|---|---|---|---|---|
| src/controllers/paymentController.js:150-152 | a message maps to 404 only if it contains "Product not found", but the product lookup reports a miss as "Product <code> not found" | `createOrder` with productCode "SKU1" when no product has it: "Product SKU1 not found" is answered 500 | an unknown product is answered 404 | high, not executed | PaymentController.UnknownProductAnswered500 | PaymentController.ErrorStatusCodeFixed |

The order handler `PaymentController.CreateOrderWith` keeps the mapping as written, so it answers what the code answers. `PaymentController.ErrorStatusCodeFixed` is the corrected mapping. `PaymentController.ProductMissMapsTo404` proves it answers every product-lookup miss with 404, and `PaymentController.CreationErrorsMapTo400` proves it still answers every validation failure with 400.

=== FILE: auth_controller.dfy ===
/** The registration endpoints: input validation and the status dispatch of
    `register`, and the thin request handlers around the OTP service. Request
    fields are strings; an absent field is modelled as the empty string, which
    JavaScript treats the same way (both are falsy). */
module AuthController {
  import opened Wrappers
  import opened Text
  import opened OtpService

  datatype AuthFailure =
    | MissingFields
    | InvalidEmail
    | UsernameTooShort
    | EmailInUse
    | RegistrationInProgress
    | NotVerified
    | Service(cause: OtpError)

  /** An error response: HTTP status and what went wrong. */
  datatype ApiError = ApiError(status: int, failure: AuthFailure)

  /** A handler's response together with the store it leaves behind. */
  datatype Reply<T> = Reply(result: Result<T, ApiError>, db: OtpDb)

  const MIN_USERNAME_LENGTH: int := 3

  /** The request-shape checks of `register`, in order; `None` when they pass. */
  function RegisterInputError(email: string, username: string): (f: Option<AuthFailure>)
    ensures f.None? <==> email != "" && username != "" && MatchesEmailPattern(email) && |username| >= MIN_USERNAME_LENGTH
    ensures f == Some(MissingFields) <==> email == "" || username == ""
    ensures f == Some(InvalidEmail) <==> email != "" && username != "" && !MatchesEmailPattern(email)
    ensures f == Some(UsernameTooShort) <==>
      (email != "" && username != "" && MatchesEmailPattern(email) && |username| < MIN_USERNAME_LENGTH)
  {
    if email == "" || username == "" then Some(MissingFields)
    else if !MatchesEmailPattern(email) then Some(InvalidEmail)
    else if |username| < MIN_USERNAME_LENGTH then Some(UsernameTooShort)
    else None
  }

  /** A new code is generated, saved (replacing any record) and mailed. */
  function SendFresh(db: OtpDb, email: string, username: string, r: real, mailOk: bool, now: int): (rep: Reply<bool>)
    requires 0.0 <= r < 1.0
    ensures rep.db == SaveOtp(db, email, GenerateOtp(r), username, now)
    ensures rep.result == (if mailOk then Ok(false) else Err(ApiError(500, Service(MailFailed))))
  {
    var db' := SaveOtp(db, email, GenerateOtp(r), username, now);
    Reply(if mailOk then Ok(false) else Err(ApiError(500, Service(MailFailed))), db')
  }

  /** `register`: validates the request before reading the store, then
      dispatches on the e-mail's status. The result value is `isResend`. */
  function Register(db: OtpDb, email: string, username: string, r: real, mailOk: bool, now: int): (rep: Reply<bool>)
    requires 0.0 <= r < 1.0
    // malformed requests are refused with 400 and nothing is written
    ensures RegisterInputError(email, username).Some? ==>
      rep == Reply(Err(ApiError(400, RegisterInputError(email, username).value)), db)
    // a registered or completed address is in use; one awaiting completion is in progress
    ensures RegisterInputError(email, username).None? ==>
      var st := GetEmailStatus(db, email, now);
      && (st == RegisteredInUsers || st == Completed ==> rep == Reply(Err(ApiError(400, EmailInUse)), db))
      && (st == VerifiedPending ==> rep == Reply(Err(ApiError(400, RegistrationInProgress)), db))
    // a pending address gets a resend: no new record, and a resend error is a 500
    ensures RegisterInputError(email, username).None? && GetEmailStatus(db, email, now).Pending? ==>
      var e := ResendOtp(db, email, r, mailOk, now);
      && rep.db == e.db
      && rep.result == (if e.result.Ok? then Ok(true) else Err(ApiError(500, Service(e.result.error))))
    // an expired or available address gets a fresh record under the new name
    ensures (RegisterInputError(email, username).None? &&
      (GetEmailStatus(db, email, now) == Expired || GetEmailStatus(db, email, now) == Available)) ==>
      rep == SendFresh(db, email, username, r, mailOk, now)
    // the store is written only for the e-mail of the request
    ensures rep.db.users == db.users
    ensures forall x :: x != email ==> (x in rep.db.otps <==> x in db.otps)
    ensures forall x :: x != email && x in db.otps ==> rep.db.otps[x] == db.otps[x]
  {
    match RegisterInputError(email, username)
    case Some(f) => Reply(Err(ApiError(400, f)), db)
    case None =>
      match GetEmailStatus(db, email, now)
      case RegisteredInUsers => Reply(Err(ApiError(400, EmailInUse)), db)
      case Completed => Reply(Err(ApiError(400, EmailInUse)), db)
      case VerifiedPending => Reply(Err(ApiError(400, RegistrationInProgress)), db)
      case Pending(_) =>
        var e := ResendOtp(db, email, r, mailOk, now);
        Reply(if e.result.Ok? then Ok(true) else Err(ApiError(500, Service(e.result.error))), e.db)
      case Expired => SendFresh(CleanupOtp(db, email), email, username, r, mailOk, now)
      case Available => SendFresh(db, email, username, r, mailOk, now)
  }

  /** The `verifyOTP` handler: 400 on missing fields or on any service error. */
  function VerifyOtpRequest(db: OtpDb, email: string, otp: string, now: int): (rep: Reply<string>)
    ensures email == "" || otp == "" ==> rep == Reply(Err(ApiError(400, MissingFields)), db)
    ensures email != "" && otp != "" ==>
      var e := VerifyOtp(db, email, otp, now);
      && rep.db == e.db
      && (rep.result.Ok? <==> Accepts(db, email, otp, now))
      && (rep.result.Ok? ==> rep.result.value == db.otps[email].username)
      && (rep.result.Err? ==> rep.result.error == ApiError(400, Service(e.result.error)))
  {
    if email == "" || otp == "" then Reply(Err(ApiError(400, MissingFields)), db)
    else
      var e := VerifyOtp(db, email, otp, now);
      Reply(if e.result.Ok? then Ok(e.result.value) else Err(ApiError(400, Service(e.result.error))), e.db)
  }

  /** The `resendOTP` handler: 400 on a missing e-mail or on any service error. */
  function ResendOtpRequest(db: OtpDb, email: string, r: real, mailOk: bool, now: int): (rep: Reply<()>)
    requires 0.0 <= r < 1.0
    ensures email == "" ==> rep == Reply(Err(ApiError(400, MissingFields)), db)
    ensures email != "" ==>
      var e := ResendOtp(db, email, r, mailOk, now);
      && rep.db == e.db
      && (rep.result.Ok? <==> e.result.Ok?)
      && (rep.result.Err? ==> rep.result.error == ApiError(400, Service(e.result.error)))
  {
    if email == "" then Reply(Err(ApiError(400, MissingFields)), db)
    else
      var e := ResendOtp(db, email, r, mailOk, now);
      Reply(if e.result.Ok? then Ok(()) else Err(ApiError(400, Service(e.result.error))), e.db)
  }

  /** The `checkVerification` handler. */
  function CheckVerification(db: OtpDb, email: string, now: int): (r: Result<bool, ApiError>)
    ensures email == "" ==> r == Err(ApiError(400, MissingFields))
    ensures email != "" ==>
      r == Ok(email in db.users || (email in db.otps && (db.otps[email].completed || db.otps[email].verified)))
  {
    if email == "" then Err(ApiError(400, MissingFields)) else Ok(IsEmailVerified(db, email, now))
  }

  /** The `getResendCountdown` handler. */
  function ResendCountdownRequest(db: OtpDb, email: string, now: int): (r: Result<int, ApiError>)
    ensures email == "" ==> r == Err(ApiError(400, MissingFields))
    ensures email != "" ==> r == Ok(GetResendCountdown(db, email, now))
    ensures email != "" ==> r.Ok? && 0 <= r.value && (email !in db.otps ==> r.value == 0)
  {
    if email == "" then Err(ApiError(400, MissingFields)) else Ok(GetResendCountdown(db, email, now))
  }

  /** The `completeRegistration` handler: marks completed only for a verified
      address; an address known only from `users` has no record to update,
      which surfaces as a 500. */
  function CompleteRegistrationRequest(db: OtpDb, email: string, now: int): (rep: Reply<()>)
    ensures rep.result.Ok? <==> email != "" && email in db.otps && IsEmailVerified(db, email, now)
    ensures email == "" ==> rep == Reply(Err(ApiError(400, MissingFields)), db)
    ensures email != "" && !IsEmailVerified(db, email, now) ==> rep == Reply(Err(ApiError(400, NotVerified)), db)
    ensures email != "" && IsEmailVerified(db, email, now) && email !in db.otps ==>
      rep == Reply(Err(ApiError(500, Service(NoDocumentToUpdate))), db)
    ensures rep.result.Ok? ==> rep.db == CompleteRegistration(db, email, now).db && rep.db.otps[email].completed
  {
    if email == "" then Reply(Err(ApiError(400, MissingFields)), db)
    else if !IsEmailVerified(db, email, now) then Reply(Err(ApiError(400, NotVerified)), db)
    else
      var e := CompleteRegistration(db, email, now);
      Reply(if e.result.Ok? then Ok(()) else Err(ApiError(500, Service(e.result.error))), e.db)
  }

  // ---------------------------------------------------------------------------
  // Scenarios across several requests
  // ---------------------------------------------------------------------------

  /** Registering an unused address stores a pending record and reports
      `isResend = false`. */
  lemma RegisterAvailableCreatesPending(db: OtpDb, email: string, username: string, r: real, now: int, later: int)
    requires 0.0 <= r < 1.0
    requires RegisterInputError(email, username).None?
    requires email !in db.users && email !in db.otps
    requires now <= later <= now + OTP_LIFETIME_MS
    ensures var rep := Register(db, email, username, r, true, now);
      && rep.result == Ok(false)
      && email in rep.db.otps && rep.db.otps[email].username == username
      && GetEmailStatus(rep.db, email, later).Pending?
  {
  }

  /** A second registration of the same address inside the 60-second cooldown
      is refused with the cooldown error and writes nothing; it does not
      report `isResend = true`. */
  lemma RegisterTwiceWithinCooldown(db: OtpDb, email: string, username: string, username2: string,
                                    r: real, r2: real, now: int, later: int)
    requires 0.0 <= r < 1.0 && 0.0 <= r2 < 1.0
    requires RegisterInputError(email, username).None? && RegisterInputError(email, username2).None?
    requires email !in db.users && email !in db.otps
    requires now <= later < now + RESEND_COOLDOWN_S * 1000
    ensures var first := Register(db, email, username, r, true, now);
      var second := Register(first.db, email, username2, r2, true, later);
      && second.result.Err? && second.result.error.status == 500
      && second.result.error.failure.Service? && second.result.error.failure.cause.CooldownActive?
      && second.db == first.db
  {
    var first := Register(db, email, username, r, true, now);
    assert GetEmailStatus(first.db, email, later).Pending?;
  }

  /** A second registration of a still-pending address after the cooldown
      resends: `isResend = true`, the record keeps the first user name and no
      record is added. */
  lemma RegisterAgainAfterCooldownResends(db: OtpDb, email: string, username: string, username2: string,
                                          r: real, r2: real, now: int, later: int)
    requires 0.0 <= r < 1.0 && 0.0 <= r2 < 1.0
    requires RegisterInputError(email, username).None? && RegisterInputError(email, username2).None?
    requires email !in db.users && email !in db.otps
    requires now + RESEND_COOLDOWN_S * 1000 <= later <= now + OTP_LIFETIME_MS
    ensures var first := Register(db, email, username, r, true, now);
      var second := Register(first.db, email, username2, r2, true, later);
      && second.result == Ok(true)
      && second.db.otps.Keys == first.db.otps.Keys
      && second.db.otps[email].username == username
  {
    var first := Register(db, email, username, r, true, now);
    assert GetEmailStatus(first.db, email, later).Pending?;
  }
}

=== FILE: auth_middleware.dfy ===
/** The request guards: bearer-token authentication with the user record's
    role and verification defaults, and the owner and verified gates that
    run after it. */
module AuthMiddleware {
  import opened Wrappers
  import opened Text
  import opened Documents

  const BEARER: string := "Bearer "
  const DEFAULT_ROLE: string := "user"
  const OWNER_ROLE: string := "owner"

  const NO_TOKEN: string := "Unauthorized: No token provided"
  const INVALID_TOKEN: string := "Unauthorized: Invalid token"
  const USER_NOT_FOUND: string := "User not found"
  const NOT_AUTHENTICATED: string := "Unauthorized: User not authenticated"
  const OWNER_REQUIRED: string := "Forbidden: Owner access required"
  const VERIFICATION_REQUIRED: string := "Forbidden: Email verification required"

  /** What token verification yields: the account id and the token's email claim. */
  datatype Token = Token(uid: string, email: Option<string>)

  /** Token verification, a collaborator: `None` when the token is rejected. */
  type Verifier = string -> Option<Token>

  /** `req.user` as the authentication guard sets it. */
  datatype AuthUser = AuthUser(uid: string, email: Option<string>, role: Value, emailVerified: Value)

  datatype Rejection = Rejection(status: int, message: string)

  /** `s.split(sep)[1]` after a leading `sep`: the text up to the next
      occurrence of `sep`, or to the end. */
  function TextBefore(s: string, sep: string): (r: string)
    requires sep != []
    ensures |r| <= |s| && r == s[..|r|]
    ensures forall i :: 0 <= i < |r| ==> !StartsWith(s[i..], sep)
    ensures |r| == |s| || StartsWith(s[|r|..], sep)
    decreases |s|
  {
    if s == [] || StartsWith(s, sep) then []
    else
      var rest := TextBefore(s[1..], sep);
      assert forall i :: 1 <= i <= |s| ==> s[i..] == s[1..][i - 1..];
      [s[0]] + rest
  }

  /** A token free of the separator is taken whole. */
  lemma TokenTakenWhole(t: string)
    requires !Contains(t, BEARER)
    ensures TextBefore(t, BEARER) == t
  {
  }

  /** The token part of a header that starts with the bearer prefix. */
  function IdToken(header: string): string
    requires StartsWith(header, BEARER)
  {
    TextBefore(header[|BEARER|..], BEARER)
  }

  /** `verifyFirebaseToken`: 401 without a bearer header, 401 when the token
      does not verify, 401 when the user has no record; otherwise the user
      with `role` defaulting to "user" and `emailVerified` to false. */
  function VerifyFirebaseToken(header: Option<string>, verify: Verifier, users: map<string, Doc>): (r: Result<AuthUser, Rejection>)
    ensures r == Err(Rejection(401, NO_TOKEN)) <==> header.None? || !StartsWith(header.value, BEARER)
    ensures r == Err(Rejection(401, INVALID_TOKEN))
      <==> header.Some? && StartsWith(header.value, BEARER) && verify(IdToken(header.value)).None?
    ensures r.Ok? <==>
      && header.Some? && StartsWith(header.value, BEARER)
      && verify(IdToken(header.value)).Some?
      && verify(IdToken(header.value)).value.uid in users
    ensures r == Err(Rejection(401, USER_NOT_FOUND))
      <==> header.Some? && StartsWith(header.value, BEARER)
           && verify(IdToken(header.value)).Some? && verify(IdToken(header.value)).value.uid !in users
    ensures r.Err? ==> r.error.status == 401
    ensures r.Ok? ==>
      var token := verify(IdToken(header.value)).value;
      var record := users[token.uid];
      && r.value.uid == token.uid && r.value.email == token.email
      && (r.value.role == if HasTruthy(record, "role") then record["role"] else Str(DEFAULT_ROLE))
      && (r.value.emailVerified == if HasTruthy(record, "emailVerified") then record["emailVerified"] else Bool(false))
  {
    if header.None? || !StartsWith(header.value, BEARER) then
      Err(Rejection(401, NO_TOKEN))
    else
      match verify(IdToken(header.value))
      case None => Err(Rejection(401, INVALID_TOKEN))
      case Some(token) =>
        if token.uid !in users then Err(Rejection(401, USER_NOT_FOUND))
        else
          var record := users[token.uid];
          var role := if HasTruthy(record, "role") then record["role"] else Str(DEFAULT_ROLE);
          var verified := if HasTruthy(record, "emailVerified") then record["emailVerified"] else Bool(false);
          Ok(AuthUser(token.uid, token.email, role, verified))
  }

  /** `requireOwner`: 401 with no user, 403 unless the role is "owner". */
  function RequireOwner(user: Option<AuthUser>): (r: Result<(), Rejection>)
    ensures r.Ok? <==> user.Some? && user.value.role == Str(OWNER_ROLE)
    ensures r.Err? ==> (r.error.status == 401 <==> user.None?)
    ensures r.Err? ==> r.error.status in {401, 403}
  {
    if user.None? then Err(Rejection(401, NOT_AUTHENTICATED))
    else if user.value.role != Str(OWNER_ROLE) then Err(Rejection(403, OWNER_REQUIRED))
    else Ok(())
  }

  /** `requireVerified`: 401 with no user, 403 unless `emailVerified` is truthy. */
  function RequireVerified(user: Option<AuthUser>): (r: Result<(), Rejection>)
    ensures r.Ok? <==> user.Some? && Truthy(user.value.emailVerified)
    ensures r.Err? ==> (r.error.status == 401 <==> user.None?)
    ensures r.Err? ==> r.error.status in {401, 403}
  {
    if user.None? then Err(Rejection(401, NOT_AUTHENTICATED))
    else if !Truthy(user.value.emailVerified) then Err(Rejection(403, VERIFICATION_REQUIRED))
    else Ok(())
  }

  /** The user a request carries after authentication, if any. */
  function Authenticated(header: Option<string>, verify: Verifier, users: map<string, Doc>): Option<AuthUser> {
    match VerifyFirebaseToken(header, verify, users)
    case Ok(u) => Some(u)
    case Err(_) => None
  }

  /** The owner routes admit a request exactly when its token verifies and
      the stored record's `role` is "owner": a missing role never passes. */
  lemma OwnerRoutesAdmitOnlyOwners(header: Option<string>, verify: Verifier, users: map<string, Doc>)
    ensures RequireOwner(Authenticated(header, verify, users)).Ok? <==>
      && header.Some? && StartsWith(header.value, BEARER)
      && verify(IdToken(header.value)).Some?
      && var uid := verify(IdToken(header.value)).value.uid;
         uid in users && FieldEquals(users[uid], "role", Str(OWNER_ROLE))
  {
  }

  /** The verified routes admit a request exactly when its token verifies
      and the stored record's `emailVerified` is truthy. */
  lemma VerifiedRoutesAdmitOnlyVerified(header: Option<string>, verify: Verifier, users: map<string, Doc>)
    ensures RequireVerified(Authenticated(header, verify, users)).Ok? <==>
      && header.Some? && StartsWith(header.value, BEARER)
      && verify(IdToken(header.value)).Some?
      && var uid := verify(IdToken(header.value)).value.uid;
         uid in users && HasTruthy(users[uid], "emailVerified")
  {
  }

  /** A header of the bearer prefix and a separator-free token hands that
      token, and nothing else, to verification. */
  lemma BearerTokenExtracted(t: string)
    requires !Contains(t, BEARER)
    ensures StartsWith(BEARER + t, BEARER) && IdToken(BEARER + t) == t
  {
    assert (BEARER + t)[|BEARER|..] == t;
    TokenTakenWhole(t);
  }
}

=== FILE: crypto_service.dfy ===
/** The control flow of the credential decryption wrapper. The cipher itself
    (AES decryption with the shared key, then UTF-8 decoding) is the parameter
    `aes`, which yields `None` where the library throws. The shared key comes
    from the environment; the empty string stands for an unset key. */
module CryptoService {
  import opened Wrappers
  import opened Text
  import opened Documents

  const ENCRYPTION_KEY_ID: string := "v1"

  type Cipher = (string, string) -> Option<string>

  datatype CryptoError = DecryptionFailed | AccountMissing {
    function Message(): string {
      match this
      case DecryptionFailed => "Failed to decrypt game credentials"
      case AccountMissing => "Game account data not found"
    }
  }

  datatype GameAccount = GameAccount(username: string, password: string)

  /** `!encryptedData || encryptedData.trim() === ""`: nothing to decrypt. */
  predicate NothingToDecrypt(data: Option<Value>) {
    data.None? || !Truthy(data.value) || (data.value.Str? && IsBlank(data.value.s))
  }

  /** `decryptGameCredential`: empty or blank input decrypts to "" with no key
      or version check; otherwise the input must be a string, the key set, the
      key id "v1" and the plaintext non-empty. Every failure inside surfaces as
      the one error `DecryptionFailed`. */
  function DecryptGameCredential(data: Option<Value>, keyId: Option<Value>, key: string, aes: Cipher): (r: Result<string, CryptoError>)
    ensures NothingToDecrypt(data) ==> r == Ok("")
    ensures r.Err? ==> r.error == DecryptionFailed
    ensures !NothingToDecrypt(data) && r.Ok? ==> r.value != ""
    ensures r.Ok? && r.value != "" ==>
      && data.Some? && data.value.Str? && !IsBlank(data.value.s)
      && key != "" && keyId == Some(Str(ENCRYPTION_KEY_ID))
      && aes(data.value.s, key) == Some(r.value)
    ensures !NothingToDecrypt(data) && (key == "" || keyId != Some(Str(ENCRYPTION_KEY_ID))) ==> r == Err(DecryptionFailed)
    ensures (!NothingToDecrypt(data) && data.value.Str? && key != "" && keyId == Some(Str(ENCRYPTION_KEY_ID))
      && aes(data.value.s, key).Some? && aes(data.value.s, key).value != "") ==> r == Ok(aes(data.value.s, key).value)
  {
    if NothingToDecrypt(data) then Ok("")
    else if !data.value.Str? then Err(DecryptionFailed)        // `trim` of a non-string throws
    else if key == "" then Err(DecryptionFailed)
    else if keyId != Some(Str(ENCRYPTION_KEY_ID)) then Err(DecryptionFailed)
    else
      match aes(data.value.s, key)
      case None => Err(DecryptionFailed)
      case Some(plain) => if plain == "" then Err(DecryptionFailed) else Ok(plain)
  }

  /** `decryptGameAccount`: refuses a missing blob, otherwise decrypts
      `username` and `password` independently under the blob's one
      `encryptionKeyId`. */
  function DecryptGameAccount(account: Option<Value>, key: string, aes: Cipher): (r: Result<GameAccount, CryptoError>)
    ensures account.None? || !Truthy(account.value) ==> r == Err(AccountMissing)
    ensures (account.Some? && Truthy(account.value)) ==>
      var keyId := Member(account, "encryptionKeyId");
      var u := DecryptGameCredential(Member(account, "username"), keyId, key, aes);
      var p := DecryptGameCredential(Member(account, "password"), keyId, key, aes);
      && (r.Ok? <==> u.Ok? && p.Ok?)
      && (r.Ok? ==> r.value == GameAccount(u.value, p.value))
      && (r.Err? ==> r.error == DecryptionFailed)
  {
    if account.None? || !Truthy(account.value) then Err(AccountMissing)
    else
      var keyId := Member(account, "encryptionKeyId");
      match DecryptGameCredential(Member(account, "username"), keyId, key, aes)
      case Err(e) => Err(e)
      case Ok(username) =>
        match DecryptGameCredential(Member(account, "password"), keyId, key, aes)
        case Err(e) => Err(e)
        case Ok(password) => Ok(GameAccount(username, password))
  }

  /** With a wrong key id, a blob whose fields are non-empty never decrypts,
      whatever the cipher does. */
  lemma WrongKeyVersionFails(account: map<string, Value>, key: string, aes: Cipher)
    requires "username" in account && account["username"].Str? && !IsBlank(account["username"].s)
    requires Lookup(account, "encryptionKeyId") != Some(Str(ENCRYPTION_KEY_ID))
    ensures DecryptGameAccount(Some(Obj(account)), key, aes) == Err(DecryptionFailed)
  {
    assert !IsBlank(account["username"].s);
    assert account["username"].s != "";
  }
}

=== FILE: documents.dfy ===
/** The document store the services talk to, reduced to its values: JSON-like
    field values, documents as field maps, collections as id-keyed maps, and the
    equality query that returns matches in ascending id order. */
module Documents {
  import opened Wrappers
  import Text

  /** Document ids, kept abstract. The store generates string ids and orders
      them as strings; the model uses naturals in numeric order instead. That
      order only decides which of several matching documents a query returns
      first, and under the unique-code invariants there is never more than one. */
  type Id = nat

  /** A stored field value. Timestamps the controllers write are kept as
      milliseconds in `Num`. */
  datatype Value =
    | Null
    | Bool(b: bool)
    | Num(n: int)
    | Str(s: string)
    | Obj(fields: map<string, Value>)

  /** A document: its fields. A field that is absent reads as `undefined`. */
  type Doc = map<string, Value>

  /** JavaScript truthiness of a present value. */
  predicate Truthy(v: Value) {
    match v
    case Null => false
    case Bool(b) => b
    case Num(n) => n != 0
    case Str(s) => s != ""
    case Obj(_) => true
  }

  /** `!!d[k]`: the field is present and truthy. */
  predicate HasTruthy(d: Doc, k: string) {
    k in d && Truthy(d[k])
  }

  /** `d[k]`, with `None` for `undefined`. */
  function Lookup(d: Doc, k: string): (r: Option<Value>)
    ensures r.Some? <==> k in d
    ensures r.Some? ==> r.value == d[k]
  {
    if k in d then Some(d[k]) else None
  }

  /** Property access `v[k]` on an arbitrary value: only objects carry fields,
      every other value yields `undefined`. */
  function Member(v: Option<Value>, k: string): (r: Option<Value>)
    ensures r.Some? <==> v.Some? && v.value.Obj? && k in v.value.fields
  {
    if v.Some? && v.value.Obj? && k in v.value.fields then Some(v.value.fields[k]) else None
  }

  /** `where(k, "==", v)` holds of a document. */
  predicate FieldEquals(d: Doc, k: string, v: Value) {
    k in d && d[k] == v
  }

  /** How a document id is written into a document (a string). */
  function IdValue(id: Id): Value {
    Str(Text.Decimal(id))
  }

  /** `{ id: doc.id, ...doc.data() }`: the data's own `id` field, if any, wins. */
  function WithId(id: Id, d: Doc): (r: Doc)
    ensures r.Keys == d.Keys + {"id"}
    ensures forall k :: k in d ==> r[k] == d[k]
    ensures "id" !in d ==> r["id"] == IdValue(id)
  {
    map["id" := IdValue(id)] + d
  }

  /** A least element of a non-empty set of ids, found by removing one
      element and comparing it with the least of the rest. */
  lemma {:induction false} LeastElement(s: set<Id>) returns (least: Id)
    requires s != {}
    ensures least in s && forall y :: y in s ==> least <= y
    decreases |s|
  {
    var x :| x in s;
    var rest := s - {x};
    if rest == {} {
      least := x;
      forall y | y in s
        ensures least <= y
      {
        assert y !in rest;
      }
    } else {
      var m := LeastElement(rest);
      least := if x < m then x else m;
      forall y | y in s
        ensures least <= y
      {
        if y != x {
          assert y in rest;
        }
      }
    }
  }

  lemma LeastExists(s: set<Id>)
    requires s != {}
    ensures exists x :: x in s && forall y :: y in s ==> x <= y
  {
    var least := LeastElement(s);
  }

  /** The least id of a non-empty set. */
  function Least(s: set<Id>): (r: Id)
    requires s != {}
    ensures r in s && forall y :: y in s ==> r <= y
  {
    LeastExists(s);
    var x :| x in s && forall y :: y in s ==> x <= y; x
  }

  /** `query(...).docs[0]`: the first matching document in id order, if any. */
  function FirstWhere<T>(c: map<Id, T>, p: T -> bool): (r: Option<Id>)
    ensures r.None? <==> forall id :: id in c ==> !p(c[id])
    ensures r.Some? ==> r.value in c && p(c[r.value])
    ensures r.Some? ==> forall id :: id in c && p(c[id]) ==> r.value <= id
  {
    var hits := set id | id in c && p(c[id]);
    assert forall id :: id in c && p(c[id]) ==> id in hits;
    if hits == {} then None else Some(Least(hits))
  }

  /** Two collections with the same ids on which a query gives the same
      verdict for every document return the same first match. */
  lemma FirstWhereCongruent<T>(c: map<Id, T>, c': map<Id, T>, p: T -> bool)
    requires c.Keys == c'.Keys
    requires forall id :: id in c ==> p(c[id]) == p(c'[id])
    ensures FirstWhere(c, p) == FirstWhere(c', p)
  {
    assert (set id | id in c && p(c[id])) == (set id | id in c' && p(c'[id]));
  }

  /** Two collections whose documents agree except on `field` return the same
      first match for any query that does not look at `field`. */
  lemma FirstWhereIgnoresOtherFields(c: map<Id, Doc>, c': map<Id, Doc>, field: string, k: string, v: Value)
    requires c.Keys == c'.Keys
    requires forall id :: id in c ==> c[id] - {field} == c'[id] - {field}
    requires k != field
    ensures FirstWhere(c, (d: Doc) => FieldEquals(d, k, v)) == FirstWhere(c', (d: Doc) => FieldEquals(d, k, v))
  {
    forall id | id in c
      ensures FieldEquals(c[id], k, v) == FieldEquals(c'[id], k, v)
    {
      assert k in c[id] <==> k in c[id] - {field};
      assert k in c'[id] <==> k in c'[id] - {field};
      if k in c[id] {
        assert c[id][k] == (c[id] - {field})[k];
        assert c'[id][k] == (c'[id] - {field})[k];
      }
    }
    var p := (d: Doc) => FieldEquals(d, k, v);
    assert (set id | id in c && p(c[id])) == (set id | id in c' && p(c'[id]));
  }
}

=== FILE: otp_service.dfy ===
/** The OTP registration state machine: one record per e-mail address in the
    `otps` collection, plus the set of addresses already present in `users`.
    The clock is the explicit `now` (milliseconds), `Math.random()` is the
    explicit draw `r` in [0, 1), and the mail transport's verdict is `mailOk`. */
module OtpService {
  import opened Wrappers
  import opened Text

  type Email = string

  const OTP_LIFETIME_MS: int := 10 * 60 * 1000
  const RESEND_COOLDOWN_S: int := 60
  const MAX_ATTEMPTS: int := 3

  datatype OtpRecord = OtpRecord(
    otp: string,
    username: string,
    createdAt: int,
    expiresAt: int,
    attempts: int,
    verified: bool,
    verifiedAt: Option<int>,
    completed: bool,
    completedAt: Option<int>)

  /** The `otps` collection keyed by e-mail, and the e-mails found in `users`. */
  datatype OtpDb = OtpDb(otps: map<Email, OtpRecord>, users: set<Email>)

  datatype OtpError =
    | CodeMissing               // verify: no record for the e-mail
    | CodeExpired               // verify: past expiresAt; record purged
    | TooManyAttempts           // verify: attempts budget used; record purged
    | WrongCode                 // verify: mismatch; attempts incremented
    | RequestMissing            // resend: no record for the e-mail
    | CooldownActive(waitSeconds: int)
    | MailFailed                // the mail transport rejected the message
    | NoDocumentToUpdate        // complete: update of a record that does not exist

  /** What an operation returns together with the store it leaves behind. */
  datatype Effect<T> = Effect(result: Result<T, OtpError>, db: OtpDb)

  datatype EmailStatus =
    | RegisteredInUsers
    | Available
    | Completed
    | VerifiedPending
    | Pending(remainingSeconds: int)
    | Expired
  {
    /** The `exists` flag reported next to the status. */
    predicate Exists() { !Available? }
  }

  /** `Math.floor(100000 + r * 900000).toString()`. */
  function GenerateOtp(r: real): (otp: string)
    requires 0.0 <= r < 1.0
    ensures |otp| == 6 && AllDigits(otp)
    ensures 100000 <= DecimalValue(otp) <= 999999
  {
    var x := 100000.0 + r * 900000.0;
    assert 100000.0 <= x < 1000000.0;
    var n := x.Floor;
    assert Pow10(5) == 100000 && Pow10(6) == 1000000;
    DecimalLength(n, 6);
    DecimalRoundTrip(n);
    Decimal(n)
  }

  /** `saveOTP`: writes a fresh record, replacing any earlier one. */
  function SaveOtp(db: OtpDb, email: Email, otp: string, username: string, now: int): (db': OtpDb)
    ensures db'.users == db.users
    ensures db'.otps.Keys == db.otps.Keys + {email}
    ensures forall e :: e in db.otps && e != email ==> db'.otps[e] == db.otps[e]
    ensures var rec := db'.otps[email];
      && rec.otp == otp && rec.username == username
      && rec.createdAt == now && rec.expiresAt == now + OTP_LIFETIME_MS
      && rec.attempts == 0 && !rec.verified && !rec.completed
      && rec.verifiedAt.None? && rec.completedAt.None?
  {
    var rec := OtpRecord(otp, username, now, now + OTP_LIFETIME_MS, 0, false, None, false, None);
    db.(otps := db.otps[email := rec])
  }

  /** `cleanupOTP`: deletes the record (deleting a missing record is a no-op). */
  function CleanupOtp(db: OtpDb, email: Email): (db': OtpDb)
    ensures db'.users == db.users
    ensures db'.otps.Keys == db.otps.Keys - {email}
    ensures forall e :: e in db'.otps ==> db'.otps[e] == db.otps[e]
  {
    db.(otps := db.otps - {email})
  }

  /** Code `input` is accepted for `email` at `now`: a record exists, is not past
      its expiry, has attempts left and holds exactly that code. */
  predicate Accepts(db: OtpDb, email: Email, input: string, now: int) {
    && email in db.otps
    && now <= db.otps[email].expiresAt
    && db.otps[email].attempts < MAX_ATTEMPTS
    && db.otps[email].otp == input
  }

  /** `verifyOTP`: missing, then expired (purge), then too many attempts (purge),
      then mismatch (count it), then match (mark verified). The expiry check
      looks at neither `verified` nor `completed`. */
  function VerifyOtp(db: OtpDb, email: Email, input: string, now: int): (e: Effect<string>)
    ensures e.db.users == db.users
    ensures e.result.Ok? <==> Accepts(db, email, input, now)
    ensures e.result.Ok? ==> e.result.value == db.otps[email].username
    ensures forall x :: x != email ==> (x in e.db.otps <==> x in db.otps)
    ensures forall x :: x != email && x in db.otps ==> e.db.otps[x] == db.otps[x]
    ensures email !in db.otps ==> e == Effect(Err(CodeMissing), db)
    ensures email in db.otps && now > db.otps[email].expiresAt ==>
      e.result == Err(CodeExpired) && email !in e.db.otps
    ensures email in db.otps && now <= db.otps[email].expiresAt && db.otps[email].attempts >= MAX_ATTEMPTS ==>
      e.result == Err(TooManyAttempts) && email !in e.db.otps
    ensures (email in db.otps && now <= db.otps[email].expiresAt && db.otps[email].attempts < MAX_ATTEMPTS
      && db.otps[email].otp != input) ==>
      && e.result == Err(WrongCode)
      && e.db.otps == db.otps[email := db.otps[email].(attempts := db.otps[email].attempts + 1)]
    ensures e.result.Ok? ==>
      e.db.otps == db.otps[email := db.otps[email].(verified := true, verifiedAt := Some(now))]
  {
    if email !in db.otps then
      Effect(Err(CodeMissing), db)
    else
      var rec := db.otps[email];
      if now > rec.expiresAt then
        Effect(Err(CodeExpired), CleanupOtp(db, email))
      else if rec.attempts >= MAX_ATTEMPTS then
        Effect(Err(TooManyAttempts), CleanupOtp(db, email))
      else if rec.otp != input then
        Effect(Err(WrongCode), db.(otps := db.otps[email := rec.(attempts := rec.attempts + 1)]))
      else
        Effect(Ok(rec.username), db.(otps := db.otps[email := rec.(verified := true, verifiedAt := Some(now))]))
  }

  /** `getEmailStatus`: the short-circuiting cascade users, no record,
      completed, verified, not yet expired, expired. */
  function GetEmailStatus(db: OtpDb, email: Email, now: int): (s: EmailStatus)
    ensures s == RegisteredInUsers <==> email in db.users
    ensures s == Available <==> email !in db.users && email !in db.otps
    ensures s == Completed <==> email !in db.users && email in db.otps && db.otps[email].completed
    ensures s == VerifiedPending <==>
      email !in db.users && email in db.otps && !db.otps[email].completed && db.otps[email].verified
    ensures s.Pending? <==>
      && email !in db.users && email in db.otps
      && !db.otps[email].completed && !db.otps[email].verified
      && now <= db.otps[email].expiresAt
    ensures s.Pending? ==>
      && 0 <= s.remainingSeconds
      && s.remainingSeconds * 1000 <= db.otps[email].expiresAt - now < (s.remainingSeconds + 1) * 1000
    ensures email in db.otps && (db.otps[email].verified || db.otps[email].completed) ==>
      !s.Pending? && !s.Expired?
  {
    if email in db.users then RegisteredInUsers
    else if email !in db.otps then Available
    else
      var rec := db.otps[email];
      if rec.completed then Completed
      else if rec.verified then VerifiedPending
      else if now <= rec.expiresAt then Pending((rec.expiresAt - now) / 1000)
      else Expired
  }

  /** `isEmailVerified`: the status is completed, verified_pending or
      registered_in_users. It does not depend on the clock. */
  function IsEmailVerified(db: OtpDb, email: Email, now: int): (v: bool)
    ensures v <==> email in db.users || (email in db.otps && (db.otps[email].completed || db.otps[email].verified))
  {
    var st := GetEmailStatus(db, email, now);
    st.Exists() && (st == Completed || st == VerifiedPending || st == RegisteredInUsers)
  }

  /** Whole seconds left before a resend is allowed, `60 - floor(elapsed)`;
      it may be zero or negative once the cooldown is over. */
  function CooldownLeft(rec: OtpRecord, now: int): int {
    RESEND_COOLDOWN_S - (now - rec.createdAt) / 1000
  }

  /** `resendOTP`: refuses without a record or within 60 s of `createdAt`;
      otherwise replaces the code, restarts the clock and the attempt budget,
      keeps the user name and the verified/completed flags, then mails. */
  function ResendOtp(db: OtpDb, email: Email, r: real, mailOk: bool, now: int): (e: Effect<()>)
    requires 0.0 <= r < 1.0
    ensures e.db.users == db.users
    ensures forall x :: x != email ==> (x in e.db.otps <==> x in db.otps)
    ensures forall x :: x != email && x in db.otps ==> e.db.otps[x] == db.otps[x]
    ensures email !in db.otps ==> e == Effect(Err(RequestMissing), db)
    ensures email in db.otps && now - db.otps[email].createdAt < RESEND_COOLDOWN_S * 1000 ==>
      e == Effect(Err(CooldownActive(CooldownLeft(db.otps[email], now))), db)
    ensures email in db.otps && now - db.otps[email].createdAt < RESEND_COOLDOWN_S * 1000 ==>
      CooldownLeft(db.otps[email], now) >= 1
    ensures email in db.otps && now - db.otps[email].createdAt >= RESEND_COOLDOWN_S * 1000 ==>
      && e.result == (if mailOk then Ok(()) else Err(MailFailed))
      && email in e.db.otps
      && var old_ := db.otps[email]; var new_ := e.db.otps[email];
      && |new_.otp| == 6 && AllDigits(new_.otp)
      && new_.createdAt == now && new_.expiresAt == now + OTP_LIFETIME_MS && new_.attempts == 0
      && new_.username == old_.username
      && new_.verified == old_.verified && new_.verifiedAt == old_.verifiedAt
      && new_.completed == old_.completed && new_.completedAt == old_.completedAt
  {
    if email !in db.otps then
      Effect(Err(RequestMissing), db)
    else
      var rec := db.otps[email];
      if now - rec.createdAt < RESEND_COOLDOWN_S * 1000 then
        Effect(Err(CooldownActive(CooldownLeft(rec, now))), db)
      else
        var rec' := rec.(otp := GenerateOtp(r), createdAt := now, expiresAt := now + OTP_LIFETIME_MS, attempts := 0);
        var db' := db.(otps := db.otps[email := rec']);
        Effect(if mailOk then Ok(()) else Err(MailFailed), db')
  }

  /** `completeRegistration`: an update of the record, so it fails when there is
      none; otherwise it sets `completed` and keeps the record. */
  function CompleteRegistration(db: OtpDb, email: Email, now: int): (e: Effect<()>)
    ensures email !in db.otps ==> e == Effect(Err(NoDocumentToUpdate), db)
    ensures email in db.otps ==>
      && e.result.Ok?
      && e.db.users == db.users
      && e.db.otps.Keys == db.otps.Keys
      && e.db.otps[email] == db.otps[email].(completed := true, completedAt := Some(now))
      && forall x :: x in db.otps && x != email ==> e.db.otps[x] == db.otps[x]
  {
    if email !in db.otps then
      Effect(Err(NoDocumentToUpdate), db)
    else
      Effect(Ok(()), db.(otps := db.otps[email := db.otps[email].(completed := true, completedAt := Some(now))]))
  }

  /** `getResendCountdown`: 0 without a record, else `max(0, 60 - floor(elapsed))`. */
  function GetResendCountdown(db: OtpDb, email: Email, now: int): (c: int)
    ensures 0 <= c
    ensures email !in db.otps ==> c == 0
    ensures email in db.otps && now >= db.otps[email].createdAt ==> c <= RESEND_COOLDOWN_S
    ensures email in db.otps ==> (c == 0 <==> now - db.otps[email].createdAt >= RESEND_COOLDOWN_S * 1000)
  {
    if email !in db.otps then 0
    else
      var remaining := CooldownLeft(db.otps[email], now);
      if remaining > 0 then remaining else 0
  }

  // ---------------------------------------------------------------------------
  // Properties relating several operations
  // ---------------------------------------------------------------------------

  /** A resend is refused for the cooldown exactly when the countdown is
      positive, and the refusal reports the countdown. */
  lemma ResendRefusedIffCountdown(db: OtpDb, email: Email, r: real, mailOk: bool, now: int)
    requires 0.0 <= r < 1.0
    requires email in db.otps
    ensures ResendOtp(db, email, r, mailOk, now).result.Err? && ResendOtp(db, email, r, mailOk, now).result.error.CooldownActive?
        <==> GetResendCountdown(db, email, now) > 0
    ensures GetResendCountdown(db, email, now) > 0 ==>
      ResendOtp(db, email, r, mailOk, now).result == Err(CooldownActive(GetResendCountdown(db, email, now)))
  {
  }

  /** A verification attempt at time `at` with code `code`. */
  datatype Attempt = Attempt(code: string, at: int)

  /** Runs the attempts in order against one e-mail and returns the final store. */
  function VerifyAll(db: OtpDb, email: Email, attempts: seq<Attempt>): OtpDb
    decreases |attempts|
  {
    if attempts == [] then db
    else VerifyAll(VerifyOtp(db, email, attempts[0].code, attempts[0].at).db, email, attempts[1..])
  }

  /** Wrong codes submitted in time change nothing but the attempt counter,
      which grows by one per attempt while the budget lasts. */
  lemma {:induction false} WrongCodesOnlyCount(db: OtpDb, email: Email, attempts: seq<Attempt>)
    requires email in db.otps
    requires db.otps[email].attempts + |attempts| <= MAX_ATTEMPTS
    requires forall i :: 0 <= i < |attempts| ==>
      attempts[i].code != db.otps[email].otp && attempts[i].at <= db.otps[email].expiresAt
    ensures VerifyAll(db, email, attempts) ==
      db.(otps := db.otps[email := db.otps[email].(attempts := db.otps[email].attempts + |attempts|)])
    decreases |attempts|
  {
    if attempts != [] {
      var rec := db.otps[email];
      var db1 := VerifyOtp(db, email, attempts[0].code, attempts[0].at).db;
      assert db1 == db.(otps := db.otps[email := rec.(attempts := rec.attempts + 1)]);
      assert forall i :: 0 <= i < |attempts[1..]| ==> attempts[1..][i] == attempts[i + 1];
      WrongCodesOnlyCount(db1, email, attempts[1..]);
      assert db1.otps[email := db1.otps[email].(attempts := db1.otps[email].attempts + |attempts[1..]|)]
          == db.otps[email := rec.(attempts := rec.attempts + |attempts|)];
    }
  }

  /** Three wrong codes on a fresh record lock it: the fourth attempt, even
      with the right code and in time, purges the record and the address
      becomes available again (when it is not a registered user). */
  lemma FourthAttemptLocksOut(db: OtpDb, email: Email, wrong: seq<Attempt>, last: Attempt)
    requires email in db.otps && db.otps[email].attempts == 0
    requires |wrong| == MAX_ATTEMPTS
    requires forall i :: 0 <= i < |wrong| ==>
      wrong[i].code != db.otps[email].otp && wrong[i].at <= db.otps[email].expiresAt
    requires last.at <= db.otps[email].expiresAt
    ensures var e := VerifyOtp(VerifyAll(db, email, wrong), email, last.code, last.at);
      && e.result == Err(TooManyAttempts)
      && e.db == CleanupOtp(db, email)
      && (email !in db.users ==> GetEmailStatus(e.db, email, last.at) == Available)
  {
    WrongCodesOnlyCount(db, email, wrong);
  }

  /** The right code in time and within budget moves a record that is not yet
      completed to `verified_pending`. */
  lemma CorrectCodeVerifies(db: OtpDb, email: Email, input: string, now: int, later: int)
    requires Accepts(db, email, input, now)
    requires email !in db.users && !db.otps[email].completed
    ensures GetEmailStatus(VerifyOtp(db, email, input, now).db, email, later) == VerifiedPending
    ensures IsEmailVerified(VerifyOtp(db, email, input, now).db, email, later)
  {
  }

  /** Completing twice at the same instant is completing once; the record is
      kept and the address stays `completed` at every later time. */
  lemma CompleteRegistrationIdempotent(db: OtpDb, email: Email, now: int, later: int)
    requires email in db.otps && email !in db.users
    ensures var once := CompleteRegistration(db, email, now).db;
      && CompleteRegistration(once, email, now).db == once
      && email in once.otps
      && GetEmailStatus(once, email, later) == Completed
  {
  }
}

=== FILE: payment_controller.dfy ===
/** The payment endpoints: order creation over the credential-free product
    lookup, the webhook handler with its "already processed" guard, the
    four-step fulfilment pipeline, the order status endpoint, and the mapping
    of error messages to HTTP statuses. */
module PaymentController {
  import opened Wrappers
  import opened Text
  import opened Documents
  import opened ProductService
  import opened CryptoService
  import opened PaymentService

  const ALREADY_PROCESSED: string := "Order already processed"
  const SOLD_OUT: string := "out_of_stock"

  // ---------------------------------------------------------------------------
  // Error statuses
  // ---------------------------------------------------------------------------

  /** `getErrorStatusCode` as written: 400 for the validation texts, then 404
      for messages containing "Product not found", else 500. */
  function ErrorStatusCode(message: string): int {
    if || Contains(message, "Missing required fields")
       || Contains(message, "Invalid email format")
       || Contains(message, "not available for purchase")
    then 400
    else if Contains(message, "Product not found") then 404
    else 500
  }

  /** The product lookup reports a miss as "Product <code> not found", which
      does not contain "Product not found": as written, a request for the
      unknown product SKU1 is answered 500, not 404. */
  lemma ProductMissMapsTo500()
    ensures ProductNotFound("SKU1").Message() == "Product SKU1 not found"
    ensures ErrorStatusCode(ProductNotFound("SKU1").Message()) == 500
  {
    var s := "Product SKU1 not found";
    assert ProductNotFound("SKU1").Message() == s;
    forall i | 0 <= i <= |s|
      ensures !StartsWith(s[i..], "Product not found") && !StartsWith(s[i..], "Invalid email format")
    {
      if i == 0 {
        DiffersAt(s, "Product not found", 0, 8);
      } else if i <= 5 {
        DiffersAt(s, "Product not found", i, 0);
      }
      if i <= 2 {
        DiffersAt(s, "Invalid email format", i, 0);
      }
    }
  }

  /** A product-lookup miss message: "Product <code> not found". */
  predicate IsProductMissMessage(message: string) {
    StartsWith(message, "Product ") && EndsWith(message, " not found")
  }

  /** The status mapping with the evidently intended 404 for a product-lookup
      miss; every other message maps as before. */
  function ErrorStatusCodeFixed(message: string): (status: int)
    ensures !IsProductMissMessage(message) ==> status == ErrorStatusCode(message)
    ensures status == 404 <==>
      (ErrorStatusCode(message) != 400 && (Contains(message, "Product not found") || IsProductMissMessage(message)))
  {
    if || Contains(message, "Missing required fields")
       || Contains(message, "Invalid email format")
       || Contains(message, "not available for purchase")
    then 400
    else if Contains(message, "Product not found") || IsProductMissMessage(message) then 404
    else 500
  }

  /** Every product-lookup miss is answered 404 by the corrected mapping,
      unless the code itself spells out one of the validation texts. */
  lemma ProductMissMapsTo404(code: string)
    ensures IsProductMissMessage(ProductNotFound(code).Message())
    ensures ErrorStatusCode(ProductNotFound(code).Message()) != 400 ==>
      ErrorStatusCodeFixed(ProductNotFound(code).Message()) == 404
  {
    var m := ProductNotFound(code).Message();
    assert m[..|"Product "|] == "Product ";
    assert m[|m| - |" not found"|..] == " not found";
  }

  /** Each validation failure of order creation is answered 400, by the
      mapping as written and by the corrected one. */
  lemma CreationErrorsMapTo400(e: OrderError)
    requires e != OrderNotFound
    ensures ErrorStatusCode(e.Message()) == 400 && ErrorStatusCodeFixed(e.Message()) == 400
  {
    match e
    case MissingFields => MessageNames(e, "Missing required fields", 0);
    case InvalidEmail => MessageNames(e, "Invalid email format", 0);
    case ProductUnavailable => MessageNames(e, "not available for purchase", 11);
  }

  /** The validation text `t` opens the message of `e` after `i` characters. */
  lemma MessageNames(e: OrderError, t: string, i: nat)
    requires i <= |e.Message()| && StartsWith(e.Message()[i..], t)
    ensures Contains(e.Message(), t)
  {
    OccursAt(e.Message(), t, i);
  }

  /** The webhook and status endpoints: 404 for "Order not found", else 500. */
  function LookupErrorStatus(message: string): (status: int)
    ensures status == 404 <==> message == OrderNotFound.Message()
    ensures status == 404 || status == 500
  {
    if message == "Order not found" then 404 else 500
  }

  // ---------------------------------------------------------------------------
  // Order creation and status
  // ---------------------------------------------------------------------------

  datatype HttpError = HttpError(status: int, message: string)

  datatype CreateResponse = CreateResponse(result: Result<Receipt, HttpError>, orders: Orders)

  /** `createOrder` with the order code the generator produced: the product is
      looked up without credentials, then creation runs. Errors are mapped by
      `getErrorStatusCode` as written. */
  function CreateOrderWith(orders: Orders, products: Products, productCode: string, email: string, amount: int,
                           code: string, freshId: Id, now: int): (r: CreateResponse)
    requires freshId !in orders && code !in OrderCodes(orders)
    ensures GetProduct(products, productCode).Err? ==>
      var m := ProductNotFound(productCode).Message();
      r == CreateResponse(Err(HttpError(ErrorStatusCode(m), m)), orders)
    ensures GetProduct(products, productCode).Ok? ==>
      var c := ProcessOrderCreation(orders, productCode, email, amount, GetProduct(products, productCode).value, code, freshId, now);
      && r.orders == c.orders
      && (r.result.Ok? <==> c.result.Ok?)
      && (r.result.Ok? ==> r.result.value == c.result.value)
      && (r.result.Err? ==> r.result.error == HttpError(400, c.result.error.Message()))
    ensures r.result.Ok? <==>
      GetProduct(products, productCode).Ok? && CreationError(productCode, email, amount, GetProduct(products, productCode).value).None?
  {
    match GetProduct(products, productCode)
    case Err(e) => CreateResponse(Err(HttpError(ErrorStatusCode(e.Message()), e.Message())), orders)
    case Ok(snapshot) =>
      var c := ProcessOrderCreation(orders, productCode, email, amount, snapshot, code, freshId, now);
      match c.result
      case Err(e) =>
        CreationErrorsMapTo400(e);
        CreateResponse(Err(HttpError(ErrorStatusCode(e.Message()), e.Message())), c.orders)
      case Ok(receipt) => CreateResponse(Ok(receipt), c.orders)
  }

  /** As written, ordering a product that does not exist is answered 500
      with the lookup's message, and nothing is stored. */
  lemma UnknownProductAnswered500(orders: Orders, products: Products, email: string, amount: int,
                                  code: string, freshId: Id, now: int)
    requires freshId !in orders && code !in OrderCodes(orders)
    requires forall id :: id in products ==> !HasCode(products[id], "SKU1")
    ensures var r := CreateOrderWith(orders, products, "SKU1", email, amount, code, freshId, now);
      r.result == Err(HttpError(500, "Product SKU1 not found")) && r.orders == orders
  {
    ProductMissMapsTo500();
  }

  /** `createOrder`: draws a fresh order code and creates the order. */
  method CreateOrder(orders: Orders, products: Products, productCode: string, email: string, amount: int,
                     freshId: Id, now: int) returns (r: CreateResponse)
    requires freshId !in orders
    requires |OrderCodes(orders)| < ORDER_CODE_SPACE
    requires UniqueOrderCodes(orders) && WellFormedOrders(orders)
    ensures UniqueOrderCodes(r.orders) && WellFormedOrders(r.orders)
    ensures r.result.Err? ==> r.orders == orders
    ensures r.result.Ok? ==>
      && r.orders.Keys == orders.Keys + {freshId}
      && r.orders[freshId].status == Pending
      && IsOrderCode(r.result.value.orderCode)
      && r.result.value.orderCode == r.orders[freshId].orderCode
      && r.result.value.orderCode !in OrderCodes(orders)
    ensures r.result.Ok? <==>
      GetProduct(products, productCode).Ok? && CreationError(productCode, email, amount, GetProduct(products, productCode).value).None?
    ensures GetProduct(products, productCode).Err? ==>
      var m := ProductNotFound(productCode).Message();
      r.result == Err(HttpError(ErrorStatusCode(m), m))
    ensures GetProduct(products, productCode).Ok? && r.result.Err? ==>
      var e := CreationError(productCode, email, amount, GetProduct(products, productCode).value);
      e.Some? && r.result.error == HttpError(400, e.value.Message())
    ensures exists code ::
              IsOrderCode(code) && code !in OrderCodes(orders)
              && r == CreateOrderWith(orders, products, productCode, email, amount, code, freshId, now)
  {
    var code := GenerateUniqueOrderCode(orders);
    r := CreateOrderWith(orders, products, productCode, email, amount, code, freshId, now);
    match GetProduct(products, productCode)
    case Err(_) =>
    case Ok(snapshot) =>
      CreationPreservesInvariants(orders, productCode, email, amount, snapshot, code, freshId, now);
  }

  /** Order creation never depends on stored credentials: two catalogues that
      differ only in `gameAccount` give the same response. */
  lemma CreationIgnoresCredentials(orders: Orders, products: Products, products': Products,
                                   productCode: string, email: string, amount: int, code: string, freshId: Id, now: int)
    requires freshId !in orders && code !in OrderCodes(orders)
    requires products.Keys == products'.Keys
    requires forall id :: id in products ==> products[id] - {CREDENTIALS_FIELD} == products'[id] - {CREDENTIALS_FIELD}
    ensures CreateOrderWith(orders, products, productCode, email, amount, code, freshId, now)
         == CreateOrderWith(orders, products', productCode, email, amount, code, freshId, now)
  {
    FirstWhereIgnoresOtherFields(products, products', CREDENTIALS_FIELD, "productCode", Str(productCode));
    assert FindByCode(products, productCode) == FindByCode(products', productCode);
    match FindByCode(products, productCode)
    case None =>
    case Some(id) =>
      var a, b := WithId(id, products[id]) - {CREDENTIALS_FIELD}, WithId(id, products'[id]) - {CREDENTIALS_FIELD};
      var d, d' := products[id] - {CREDENTIALS_FIELD}, products'[id] - {CREDENTIALS_FIELD};
      forall k | k in a ensures k in b && a[k] == b[k] {
        if k in d { assert k in d'; } else { assert k !in d'; }
      }
      forall k | k in b ensures k in a {
        if k in d' { assert k in d; } else { assert k !in d; }
      }
      assert a.Keys == b.Keys;
      assert a == b;
  }

  /** The order status endpoint. */
  function GetOrderStatusRequest(orders: Orders, code: string): (r: Result<Order, HttpError>)
    ensures r.Err? <==> code !in OrderCodes(orders)
    ensures r.Err? ==> r.error == HttpError(404, "Order not found")
    ensures r.Ok? ==> r.value.orderCode == code && r.value in orders.Values
    ensures r.Ok? ==> r.value == orders[FindOrderByCode(orders, code).value]
  {
    match GetOrderStatus(orders, code)
    case Err(e) => Err(HttpError(LookupErrorStatus(e.Message()), e.Message()))
    case Ok(order) => Ok(order)
  }

  // ---------------------------------------------------------------------------
  // Fulfilment
  // ---------------------------------------------------------------------------

  datatype Stage = FetchWithCredentials | DecryptCredentials | SendEmail | MarkSoldOut

  /** The fulfilment steps in the order they run. */
  const PIPELINE: seq<Stage> := [FetchWithCredentials, DecryptCredentials, SendEmail, MarkSoldOut]

  datatype FulfilmentError = LookupFailed(lookup: ProductError) | CryptoFailed(crypto: CryptoError) | MailRejected {
    function Message(): string {
      match this
      case LookupFailed(e) => e.Message()
      case CryptoFailed(e) => e.Message()
      case MailRejected => "Mail transport failure"
    }
  }

  /** The message carrying the buyer's credentials. */
  datatype Mail = Mail(to: string, orderCode: string, productName: Option<Value>, account: GameAccount)

  /** What fulfilment depends on besides the stores: the shared key, the
      cipher, and whether the mail transport accepts the message. */
  datatype Collaborators = Collaborators(key: string, aes: Cipher, mailOk: bool)

  /** What a fulfilment run did: its result, the steps it started, the mail
      it handed to the transport, and the catalogue afterwards. */
  datatype Fulfilment = Fulfilment(result: Result<(), FulfilmentError>, stages: seq<Stage>, sent: Option<Mail>, products: Products)

  /** `processOrderFulfillment`: fetch with credentials, decrypt, mail, mark
      sold out; the first failure ends the run and propagates. */
  function ProcessOrderFulfillment(products: Products, order: Order, productCode: string,
                                   env: Collaborators, now: int): (f: Fulfilment)
    // the steps run in pipeline order and stop at the first failure
    ensures 1 <= |f.stages| <= |PIPELINE| && f.stages == PIPELINE[..|f.stages|]
    ensures f.result.Ok? <==> f.stages == PIPELINE
    ensures f.result.Err? && f.result.error.LookupFailed? ==> f.stages == [FetchWithCredentials]
    ensures f.result.Err? && f.result.error.CryptoFailed? ==> f.stages == PIPELINE[..2]
    ensures f.result.Err? && f.result.error.MailRejected? ==> f.stages == PIPELINE[..3]
    // the catalogue is written only by the last step, and then only `status`/`updatedAt` of the product
    ensures MarkSoldOut !in f.stages ==> f.products == products
    ensures f.result.Ok? ==> f.products == UpdateProductStatus(products, productCode, SOLD_OUT, now).products
    // credentials go to the buyer, decrypted from the product's blob, and only after decryption
    ensures f.sent.Some? ==>
      && f.result.Ok?
      && f.sent.value.to == order.email && f.sent.value.orderCode == order.orderCode
      && GetProductWithCredentials(products, productCode).Ok?
      && DecryptGameAccount(GetProductCredentials(GetProductWithCredentials(products, productCode).value), env.key, env.aes)
         == Ok(f.sent.value.account)
    ensures f.result.Ok? ==> f.sent.Some?
    // each step's failure is the run's error, and success needs every step to succeed
    ensures GetProductWithCredentials(products, productCode).Err?
      <==> f.result == Err(LookupFailed(ProductNotFound(productCode)))
    ensures GetProductWithCredentials(products, productCode).Ok? ==>
      var account := DecryptGameAccount(GetProductCredentials(GetProductWithCredentials(products, productCode).value), env.key, env.aes);
      && (account.Err? ==> f.result == Err(CryptoFailed(account.error)) && f.sent.None?)
      && (account.Ok? && !env.mailOk ==> f.result == Err(MailRejected) && f.sent.None?)
      && (account.Ok? && env.mailOk ==>
            f.result.Ok? && f.sent == Some(Mail(order.email, order.orderCode, order.productName, account.value)))
  {
    match GetProductWithCredentials(products, productCode)
    case Err(e) => Fulfilment(Err(LookupFailed(e)), PIPELINE[..1], None, products)
    case Ok(product) =>
      match DecryptGameAccount(GetProductCredentials(product), env.key, env.aes)
      case Err(e) => Fulfilment(Err(CryptoFailed(e)), PIPELINE[..2], None, products)
      case Ok(account) =>
        if !env.mailOk then
          Fulfilment(Err(MailRejected), PIPELINE[..3], None, products)
        else
          var mail := Mail(order.email, order.orderCode, order.productName, account);
          var w := UpdateProductStatus(products, productCode, SOLD_OUT, now);
          Fulfilment(if w.result.Ok? then Ok(()) else Err(LookupFailed(ProductNotFound(productCode))),
                     PIPELINE, Some(mail), w.products)
  }

  // ---------------------------------------------------------------------------
  // Webhook
  // ---------------------------------------------------------------------------

  /** The webhook response: HTTP status, error or informational message, the
      fulfilment run if one started, and both stores afterwards. */
  datatype WebhookResponse = WebhookResponse(
    status: int, message: Option<string>, fulfilment: Option<Fulfilment>, orders: Orders, products: Products)

  /** `handleWebhook`: processes the delivery; skips fulfilment on "already
      processed"; a failing fulfilment is a 500 after the order was completed. */
  function HandleWebhook(orders: Orders, products: Products, code: string, id: string, gateway: string,
                         env: Collaborators, now: int): (h: WebhookResponse)
    ensures h.orders == ProcessWebhook(orders, code, id, gateway, now).orders
    ensures code !in OrderCodes(orders) ==> h.status == 404 && h.fulfilment.None? && h.products == products
    ensures h.fulfilment.Some? <==>
      (ProcessWebhook(orders, code, id, gateway, now).result.Ok? && ProcessWebhook(orders, code, id, gateway, now).result.value.Confirmed?)
    ensures h.fulfilment.None? ==> h.products == products
    ensures (ProcessWebhook(orders, code, id, gateway, now).result.Ok?
             && ProcessWebhook(orders, code, id, gateway, now).result.value.AlreadyProcessed?) ==>
      h.status == 200 && h.message == Some(ALREADY_PROCESSED) && h.fulfilment.None?
    ensures h.fulfilment.Some? ==>
      && h.products == h.fulfilment.value.products
      && (h.status == 200 <==> h.fulfilment.value.result.Ok?)
      && (h.status != 200 ==> h.status == 500)
    ensures h.fulfilment.Some? ==>
      var c := ProcessWebhook(orders, code, id, gateway, now).result.value;
      h.fulfilment.value == ProcessOrderFulfillment(products, c.order, c.productCode, env, now)
  {
    var w := ProcessWebhook(orders, code, id, gateway, now);
    match w.result
    case Err(e) => WebhookResponse(LookupErrorStatus(e.Message()), Some(e.Message()), None, w.orders, products)
    case Ok(AlreadyProcessed(_)) => WebhookResponse(200, Some(ALREADY_PROCESSED), None, w.orders, products)
    case Ok(Confirmed(order, productCode)) =>
      var f := ProcessOrderFulfillment(products, order, productCode, env, now);
      match f.result
      case Ok(_) => WebhookResponse(200, None, Some(f), w.orders, f.products)
      case Err(e) =>
        FulfilmentMessagesAreNotOrderNotFound(e);
        WebhookResponse(LookupErrorStatus(e.Message()), Some(e.Message()), Some(f), w.orders, f.products)
  }

  /** No fulfilment failure reads as "Order not found". */
  lemma FulfilmentMessagesAreNotOrderNotFound(e: FulfilmentError)
    ensures e.Message() != "Order not found"
  {
    match e
    case LookupFailed(p) =>
      assert e.Message()[0] == 'P';
    case CryptoFailed(c) =>
    case MailRejected =>
  }

  /** A failed fulfilment leaves the order completed: the status write came
      first and is not undone. */
  lemma FailedFulfilmentKeepsOrderCompleted(orders: Orders, products: Products, code: string, id: string,
                                            gateway: string, env: Collaborators, now: int)
    requires code in OrderCodes(orders)
    ensures var h := HandleWebhook(orders, products, code, id, gateway, env, now);
      var key := FindOrderByCode(orders, code).value;
      && key in h.orders && h.orders[key].status == Completed
  {
  }

  /** Applies webhook deliveries in order, threading both stores; returns how
      many fulfilment runs started. */
  function RunDeliveries(orders: Orders, products: Products, ds: seq<Delivery>, env: Collaborators): nat
    decreases |ds|
  {
    if ds == [] then 0
    else
      var h := HandleWebhook(orders, products, ds[0].code, ds[0].id, ds[0].gateway, env, ds[0].at);
      RunDeliveries(h.orders, h.products, ds[1..], env) + if h.fulfilment.Some? then 1 else 0
  }

  /** Fulfilment runs exactly when the order service confirms a payment. */
  lemma {:induction false} FulfilmentsAreConfirmations(orders: Orders, products: Products, ds: seq<Delivery>, env: Collaborators)
    ensures RunDeliveries(orders, products, ds, env) == RunWebhooks(orders, ds).1
    decreases |ds|
  {
    if ds != [] {
      var h := HandleWebhook(orders, products, ds[0].code, ds[0].id, ds[0].gateway, env, ds[0].at);
      FulfilmentsAreConfirmations(h.orders, h.products, ds[1..], env);
    }
  }

  /** Sequential (re)deliveries of one order's webhook run fulfilment at most
      once: decryption, the credentials mail and the stock update happen at
      most once per order. */
  lemma FulfilmentAtMostOnce(orders: Orders, products: Products, code: string, ds: seq<Delivery>, env: Collaborators)
    requires forall i :: 0 <= i < |ds| ==> ds[i].code == code
    ensures RunDeliveries(orders, products, ds, env) <= 1
  {
    FulfilmentsAreConfirmations(orders, products, ds, env);
    AtMostOneConfirmation(orders, code, ds);
  }

  /** Fulfilment takes the product off sale: afterwards the lookup order
      creation uses still finds it, unavailable, so a further order for the
      same code is refused and stores nothing. */
  lemma FulfilledProductCannotBeOrderedAgain(products: Products, order: Order, productCode: string,
                                             env: Collaborators, now: int, orders: Orders,
                                             email: string, amount: int, code: string, freshId: Id, later: int)
    requires freshId !in orders && code !in OrderCodes(orders)
    requires ProcessOrderFulfillment(products, order, productCode, env, now).result.Ok?
    ensures var f := ProcessOrderFulfillment(products, order, productCode, env, now);
      var r := CreateOrderWith(orders, f.products, productCode, email, amount, code, freshId, later);
      && GetProduct(f.products, productCode).Ok?
      && !IsProductAvailable(GetProduct(f.products, productCode).value)
      && r.result.Err? && r.orders == orders
      && (productCode != "" && email != "" && amount != 0 && MatchesEmailPattern(email) ==>
            r.result == Err(HttpError(400, ProductUnavailable.Message())))
  {
    MarkedProductUnavailable(products, productCode, SOLD_OUT, now);
  }
}

=== FILE: payment_service.dfy ===
/** The order lifecycle: order-code generation, order creation behind its
    validations, the one-way `pending -> completed` webhook transition and
    the status lookup. Orders live in a collection keyed by document id. */
module PaymentService {
  import opened Wrappers
  import opened Text
  import opened Documents
  import opened ProductService

  const ORDER_LIFETIME_MS: int := 15 * 60 * 1000
  const ORDER_NUMBER_MIN: int := 1000000
  const ORDER_NUMBER_MAX: int := 9999999
  /** How many distinct order codes the generator can produce. */
  const ORDER_CODE_SPACE: int := ORDER_NUMBER_MAX - ORDER_NUMBER_MIN + 1
  const BANK_NAME: string := "BIDV"
  const PAYMENT_METHOD: string := "bank_transfer"
  const DEFAULT_GATEWAY: string := "manual"

  datatype OrderStatus = Pending | Completed

  /** The fields the webhook adds on completion. */
  datatype Payment = Payment(paidAt: int, transactionId: Option<string>, gateway: string)

  datatype Order = Order(
    id: Id,
    orderCode: string,
    productCode: string,
    productId: Option<Value>,
    productName: Option<Value>,
    email: string,
    amount: int,
    status: OrderStatus,
    createdAt: int,
    expiresAt: int,
    paymentMethod: string,
    payment: Option<Payment>)

  type Orders = map<Id, Order>

  datatype OrderError = MissingFields | InvalidEmail | ProductUnavailable | OrderNotFound {
    function Message(): string {
      match this
      case MissingFields => "Missing required fields" + ": productCode, email, amount"
      case InvalidEmail => "Invalid email format"
      case ProductUnavailable => "Product is " + "not available for purchase"
      case OrderNotFound => "Order not found"
    }
  }

  /** The payment QR request: the gateway URL carries the amount and, as the
      transfer description, the order code. */
  datatype QrRequest = QrRequest(amount: int, description: string)
  datatype BankInfo = BankInfo(bankName: string, amount: int, content: string)
  datatype Receipt = Receipt(orderCode: string, amount: int, expiresAt: int, qrCode: QrRequest, bankInfo: BankInfo)

  datatype Creation = Creation(result: Result<Receipt, OrderError>, orders: Orders)

  // ---------------------------------------------------------------------------
  // Order codes
  // ---------------------------------------------------------------------------

  function OrderCodeFor(n: nat): string {
    "ORD" + Decimal(n)
  }

  /** "ORD" followed by the seven digits of a number in [1000000, 9999999]. */
  predicate IsOrderCode(code: string) {
    && |code| == 10 && code[..3] == "ORD" && AllDigits(code[3..])
    && ORDER_NUMBER_MIN <= DecimalValue(code[3..]) <= ORDER_NUMBER_MAX
  }

  lemma OrderCodeForShape(n: nat)
    requires ORDER_NUMBER_MIN <= n <= ORDER_NUMBER_MAX
    ensures IsOrderCode(OrderCodeFor(n))
    ensures OrderCodeFor(n)[3..] == Decimal(n)
  {
    assert Pow10(6) == 1000000 && Pow10(7) == 10000000;
    DecimalLength(n, 7);
    DecimalRoundTrip(n);
    assert OrderCodeFor(n)[3..] == Decimal(n);
  }

  /** `randomOrderCode`: `"ORD" + Math.floor(1000000 + r * 9000000)`. */
  function RandomOrderCode(r: real): (code: string)
    requires 0.0 <= r < 1.0
    ensures IsOrderCode(code)
  {
    var x := 1000000.0 + r * 9000000.0;
    assert 1000000.0 <= x < 10000000.0;
    var n := x.Floor;
    OrderCodeForShape(n);
    OrderCodeFor(n)
  }

  /** The codes of all stored orders. */
  function OrderCodes(orders: Orders): set<string> {
    set id | id in orders :: orders[id].orderCode
  }

  /** `lo <= n < hi` as a predicate: it gives the set comprehensions below a
      trigger, while their explicit bounds show the sets are finite. */
  predicate InRange(n: int, lo: int, hi: int) {
    lo <= n < hi
  }

  /** The naturals in [lo, hi). */
  function Range(lo: nat, hi: int): set<nat> {
    set n: nat | lo <= n < hi && InRange(n, lo, hi)
  }

  /** The numbers in [lo, hi) whose order code is in `used`. */
  function UsedNumbers(used: set<string>, lo: nat, hi: int): set<nat> {
    set n: nat | lo <= n < hi && InRange(n, lo, hi) && OrderCodeFor(n) in used
  }

  /** At most `|used|` numbers of any range map into `used`: distinct
      numbers have distinct codes. */
  lemma {:induction false} UsedNumbersBounded(used: set<string>, lo: nat, hi: int)
    ensures |UsedNumbers(used, lo, hi)| <= |used|
    decreases |used|
  {
    var u := UsedNumbers(used, lo, hi);
    if u != {} {
      var n :| n in u;
      var c := OrderCodeFor(n);
      assert c in used;
      UsedNumbersBounded(used - {c}, lo, hi);
      forall m | m in u && m != n
        ensures m in UsedNumbers(used - {c}, lo, hi)
      {
        if OrderCodeFor(m) == c {
          assert OrderCodeFor(m)[3..] == Decimal(m);
          assert OrderCodeFor(n)[3..] == Decimal(n);
          DecimalInjective(m, n);
        }
      }
      var rest := UsedNumbers(used - {c}, lo, hi);
      assert u - {n} <= rest;
      assert rest == (u - {n}) + (rest - (u - {n}));
      assert |u - {n}| <= |rest|;
      assert |u| == |u - {n}| + 1;
      assert |used| == |used - {c}| + 1;
    }
  }

  lemma {:induction false} RangeSize(lo: nat, hi: int)
    requires lo <= hi
    ensures |Range(lo, hi)| == hi - lo
    decreases hi - lo
  {
    if lo < hi {
      RangeSize(lo, hi - 1);
      assert Range(lo, hi) == Range(lo, hi - 1) + {hi - 1};
    } else {
      assert Range(lo, hi) == {};
    }
  }

  /** While fewer codes are in use than the generator can produce, some
      code it can produce is still free. */
  lemma FreeOrderNumberExists(used: set<string>)
    requires |used| < ORDER_CODE_SPACE
    ensures exists n :: ORDER_NUMBER_MIN <= n <= ORDER_NUMBER_MAX && OrderCodeFor(n) !in used
  {
    var range := Range(ORDER_NUMBER_MIN, ORDER_NUMBER_MAX + 1);
    var taken := UsedNumbers(used, ORDER_NUMBER_MIN, ORDER_NUMBER_MAX + 1);
    RangeSize(ORDER_NUMBER_MIN, ORDER_NUMBER_MAX + 1);
    UsedNumbersBounded(used, ORDER_NUMBER_MIN, ORDER_NUMBER_MAX + 1);
    assert taken <= range;
    var free := range - taken;
    assert |free| > 0;
    var n :| n in free;
    assert ORDER_NUMBER_MIN <= n <= ORDER_NUMBER_MAX && OrderCodeFor(n) !in used;
  }

  /** `generateUniqueOrderCode`: draws codes until one matches no stored
      order. Each draw is a nondeterministic choice among the generator's
      codes, so the loop's outcome is any free code; one exists while the code
      space is not exhausted (otherwise the source loops forever). */
  method GenerateUniqueOrderCode(orders: Orders) returns (code: string)
    requires |OrderCodes(orders)| < ORDER_CODE_SPACE
    ensures IsOrderCode(code)
    ensures code !in OrderCodes(orders)
    ensures forall id :: id in orders ==> orders[id].orderCode != code
  {
    FreeOrderNumberExists(OrderCodes(orders));
    var n :| ORDER_NUMBER_MIN <= n <= ORDER_NUMBER_MAX && OrderCodeFor(n) !in OrderCodes(orders);
    OrderCodeForShape(n);
    code := OrderCodeFor(n);
  }

  // ---------------------------------------------------------------------------
  // Orders
  // ---------------------------------------------------------------------------

  /** No two stored orders share a code. */
  predicate UniqueOrderCodes(orders: Orders) {
    forall a, b :: a in orders && b in orders && a != b ==> orders[a].orderCode != orders[b].orderCode
  }

  /** The shape every order written by this service has. */
  predicate WellFormedOrders(orders: Orders) {
    forall id :: id in orders ==>
      var o := orders[id];
      && o.id == id
      && o.expiresAt == o.createdAt + ORDER_LIFETIME_MS
      && (o.status == Completed <==> o.payment.Some?)
  }

  /** The validations of `processOrderCreation`, in order. */
  function CreationError(productCode: string, email: string, amount: int, product: Doc): (e: Option<OrderError>)
    ensures e.None? <==> productCode != "" && email != "" && amount != 0 && MatchesEmailPattern(email) && IsProductAvailable(product)
    ensures e == Some(MissingFields) <==> productCode == "" || email == "" || amount == 0
    ensures e == Some(InvalidEmail) <==> productCode != "" && email != "" && amount != 0 && !MatchesEmailPattern(email)
    ensures e != Some(OrderNotFound)
    ensures e == Some(ProductUnavailable) <==>
      productCode != "" && email != "" && amount != 0 && MatchesEmailPattern(email) && !IsProductAvailable(product)
  {
    if productCode == "" || email == "" || amount == 0 then Some(MissingFields)
    else if !MatchesEmailPattern(email) then Some(InvalidEmail)
    else if !IsProductAvailable(product) then Some(ProductUnavailable)
    else None
  }

  /** `processOrderCreation`, given the code the generator returned and the
      id the store assigns: every validation runs before the single write. */
  function ProcessOrderCreation(orders: Orders, productCode: string, email: string, amount: int,
                                product: Doc, code: string, freshId: Id, now: int): (c: Creation)
    requires freshId !in orders
    requires code !in OrderCodes(orders)
    // on any failure nothing is persisted
    ensures CreationError(productCode, email, amount, product).Some? ==>
      c == Creation(Err(CreationError(productCode, email, amount, product).value), orders)
    ensures c.result.Err? ==> c.orders == orders
    // on success exactly one pending order is added, with a 15-minute expiry
    ensures c.result.Ok? ==>
      && c.orders.Keys == orders.Keys + {freshId}
      && (forall id :: id in orders ==> c.orders[id] == orders[id])
      && var o := c.orders[freshId];
      && o.id == freshId && o.orderCode == code && o.status == Pending && o.payment.None?
      && o.createdAt == now && o.expiresAt == now + ORDER_LIFETIME_MS
      && o.amount == amount && o.email == email && o.productCode == productCode
      && o.productId == Lookup(product, "id") && o.productName == Lookup(product, "name")
    // the receipt names the order: transfer content and QR description are its code
    ensures c.result.Ok? ==>
      var rc := c.result.value;
      && rc.orderCode == code && rc.bankInfo.content == code && rc.qrCode.description == code
      && rc.amount == amount && rc.bankInfo.amount == amount && rc.qrCode.amount == amount
      && rc.expiresAt == now + ORDER_LIFETIME_MS
    ensures c.result.Ok? <==> CreationError(productCode, email, amount, product).None?
  {
    match CreationError(productCode, email, amount, product)
    case Some(e) => Creation(Err(e), orders)
    case None =>
      var expiresAt := now + ORDER_LIFETIME_MS;
      var order := Order(freshId, code, productCode, Lookup(product, "id"), Lookup(product, "name"),
                         email, amount, Pending, now, expiresAt, PAYMENT_METHOD, None);
      var receipt := Receipt(code, amount, expiresAt, QrRequest(amount, code), BankInfo(BANK_NAME, amount, code));
      Creation(Ok(receipt), orders[freshId := order])
  }

  /** `findOrderByCode`: the first order with that code, in id order. */
  function FindOrderByCode(orders: Orders, code: string): (r: Option<Id>)
    ensures r.None? <==> code !in OrderCodes(orders)
    ensures r.Some? ==> r.value in orders && orders[r.value].orderCode == code
    ensures r.Some? ==> forall id :: id in orders && orders[id].orderCode == code ==> r.value <= id
    ensures r.Some? && UniqueOrderCodes(orders) ==>
      forall id :: id in orders && orders[id].orderCode == code ==> id == r.value
  {
    var r := FirstWhere(orders, (o: Order) => o.orderCode == code);
    assert r.None? ==> code !in OrderCodes(orders);
    r
  }

  /** `getOrderStatus`: the matching record unchanged, or `OrderNotFound`. */
  function GetOrderStatus(orders: Orders, code: string): (r: Result<Order, OrderError>)
    ensures r.Err? <==> code !in OrderCodes(orders)
    ensures r.Err? ==> r.error == OrderNotFound
    ensures r.Ok? ==> r.value.orderCode == code && r.value in orders.Values
    ensures r.Ok? ==> r.value == orders[FindOrderByCode(orders, code).value]
  {
    match FindOrderByCode(orders, code)
    case None => Err(OrderNotFound)
    case Some(id) => Ok(orders[id])
  }

  /** What a webhook delivery did: nothing, because the order was already
      completed, or the transition, reporting the order as it was before. */
  datatype WebhookOutcome = AlreadyProcessed(order: Order) | Confirmed(order: Order, productCode: string)

  datatype WebhookStep = WebhookStep(result: Result<WebhookOutcome, OrderError>, orders: Orders)

  /** `processWebhook`: a one-way `pending -> completed` transition guarded by
      "already processed". `id` and `gateway` are the delivery's fields; the
      empty string stands for an absent (falsy) one. */
  function ProcessWebhook(orders: Orders, code: string, id: string, gateway: string, now: int): (w: WebhookStep)
    ensures code !in OrderCodes(orders) ==> w == WebhookStep(Err(OrderNotFound), orders)
    ensures w.result.Ok? && w.result.value.AlreadyProcessed? ==>
      w.orders == orders && w.result.value.order.status == Completed
      && w.result.value.order == orders[FindOrderByCode(orders, code).value]
    ensures w.result.Ok? ==> w.result.value.order.orderCode == code && w.result.value.order in orders.Values
    ensures w.result.Ok? && w.result.value.Confirmed? ==>
      var key := FindOrderByCode(orders, code).value;
      var before := orders[key];
      && w.result.value.order == before && before.status == Pending
      && w.result.value.productCode == before.productCode
      && w.orders.Keys == orders.Keys
      && (forall other :: other in orders && other != key ==> w.orders[other] == orders[other])
      && w.orders[key] == before.(status := Completed,
           payment := Some(Payment(now, if id == "" then None else Some(id), if gateway == "" then DEFAULT_GATEWAY else gateway)))
    ensures code in OrderCodes(orders) ==> w.result.Ok?
  {
    match FindOrderByCode(orders, code)
    case None => WebhookStep(Err(OrderNotFound), orders)
    case Some(key) =>
      var order := orders[key];
      if order.status == Completed then
        WebhookStep(Ok(AlreadyProcessed(order)), orders)
      else
        var payment := Payment(now, if id == "" then None else Some(id), if gateway == "" then DEFAULT_GATEWAY else gateway);
        WebhookStep(Ok(Confirmed(order, order.productCode)), orders[key := order.(status := Completed, payment := Some(payment))])
  }

  // ---------------------------------------------------------------------------
  // Invariants and the at-most-once transition
  // ---------------------------------------------------------------------------

  /** Creation keeps order codes unique and orders well formed. */
  lemma CreationPreservesInvariants(orders: Orders, productCode: string, email: string, amount: int,
                                    product: Doc, code: string, freshId: Id, now: int)
    requires freshId !in orders && code !in OrderCodes(orders)
    requires UniqueOrderCodes(orders) && WellFormedOrders(orders)
    ensures UniqueOrderCodes(ProcessOrderCreation(orders, productCode, email, amount, product, code, freshId, now).orders)
    ensures WellFormedOrders(ProcessOrderCreation(orders, productCode, email, amount, product, code, freshId, now).orders)
  {
    var c := ProcessOrderCreation(orders, productCode, email, amount, product, code, freshId, now);
    if c.result.Ok? {
      forall a | a in orders
        ensures orders[a].orderCode != code
      {
        assert orders[a].orderCode in OrderCodes(orders);
      }
    }
  }

  /** The webhook keeps order codes unique and orders well formed, and it
      changes no order's code. */
  lemma WebhookPreservesInvariants(orders: Orders, code: string, id: string, gateway: string, now: int)
    requires UniqueOrderCodes(orders) && WellFormedOrders(orders)
    ensures var w := ProcessWebhook(orders, code, id, gateway, now);
      && UniqueOrderCodes(w.orders) && WellFormedOrders(w.orders)
      && w.orders.Keys == orders.Keys
      && forall k :: k in orders ==> w.orders[k].orderCode == orders[k].orderCode
  {
  }

  /** A webhook leaves every lookup by code as it was. */
  lemma WebhookKeepsLookups(orders: Orders, code: string, id: string, gateway: string, now: int, code': string)
    ensures FindOrderByCode(ProcessWebhook(orders, code, id, gateway, now).orders, code') == FindOrderByCode(orders, code')
  {
    var w := ProcessWebhook(orders, code, id, gateway, now);
    FirstWhereCongruent(orders, w.orders, (o: Order) => o.orderCode == code');
  }

  /** One webhook delivery. */
  datatype Delivery = Delivery(code: string, id: string, gateway: string, at: int)

  /** Applies the deliveries in order; returns how many completed an order
      and the final orders. */
  function RunWebhooks(orders: Orders, ds: seq<Delivery>): (Orders, nat)
    decreases |ds|
  {
    if ds == [] then (orders, 0)
    else
      var w := ProcessWebhook(orders, ds[0].code, ds[0].id, ds[0].gateway, ds[0].at);
      var (final, n) := RunWebhooks(w.orders, ds[1..]);
      (final, n + if w.result.Ok? && w.result.value.Confirmed? then 1 else 0)
  }

  /** Once the order for a code is completed, further deliveries for that
      code change nothing and confirm nothing. */
  lemma {:induction false} CompletedOrderAbsorbsDeliveries(orders: Orders, code: string, ds: seq<Delivery>)
    requires FindOrderByCode(orders, code).Some?
    requires orders[FindOrderByCode(orders, code).value].status == Completed
    requires forall i :: 0 <= i < |ds| ==> ds[i].code == code
    ensures RunWebhooks(orders, ds) == (orders, 0)
    decreases |ds|
  {
    if ds != [] {
      assert forall i :: 0 <= i < |ds[1..]| ==> ds[1..][i] == ds[i + 1];
      CompletedOrderAbsorbsDeliveries(orders, code, ds[1..]);
    }
  }

  /** Sequential deliveries for one code complete its order at most once. */
  lemma {:induction false} AtMostOneConfirmation(orders: Orders, code: string, ds: seq<Delivery>)
    requires forall i :: 0 <= i < |ds| ==> ds[i].code == code
    ensures RunWebhooks(orders, ds).1 <= 1
    decreases |ds|
  {
    if ds != [] {
      var w := ProcessWebhook(orders, ds[0].code, ds[0].id, ds[0].gateway, ds[0].at);
      assert forall i :: 0 <= i < |ds[1..]| ==> ds[1..][i] == ds[i + 1];
      if w.result.Ok? && w.result.value.Confirmed? {
        WebhookKeepsLookups(orders, code, ds[0].id, ds[0].gateway, ds[0].at, code);
        CompletedOrderAbsorbsDeliveries(w.orders, code, ds[1..]);
      } else {
        AtMostOneConfirmation(w.orders, code, ds[1..]);
      }
    }
  }

  /** Two sequential deliveries for a pending order: the first completes it,
      the second reports "already processed" and changes nothing. */
  lemma SecondDeliveryIsNoOp(orders: Orders, code: string, d1: Delivery, d2: Delivery)
    requires d1.code == code && d2.code == code
    requires FindOrderByCode(orders, code).Some? && orders[FindOrderByCode(orders, code).value].status == Pending
    ensures var w1 := ProcessWebhook(orders, code, d1.id, d1.gateway, d1.at);
      var w2 := ProcessWebhook(w1.orders, code, d2.id, d2.gateway, d2.at);
      && w1.result.Ok? && w1.result.value.Confirmed?
      && w2.result.Ok? && w2.result.value.AlreadyProcessed?
      && w2.orders == w1.orders
  {
    WebhookKeepsLookups(orders, code, d1.id, d1.gateway, d1.at, code);
  }
}

=== FILE: product_controller.dfy ===
/** The owner-only catalogue endpoints: add, update and delete a product, and
    the lookup by product code. Together they keep every truthy
    `productCode` held by at most one product. */
module ProductController {
  import opened Wrappers
  import opened Documents
  import opened ProductService

  const CODE_FIELD: string := "productCode"
  const MISSING_FIELDS: string := "Missing required fields: name, productCode, price"
  const DUPLICATE_CODE: string := "Product code already exists"
  const NOT_FOUND: string := "Product not found"

  /** An endpoint's answer: HTTP status, the product or an error message,
      and the catalogue afterwards. */
  datatype Response = Response(status: int, result: Result<Doc, string>, products: Products)

  /** `body.k` is present and truthy; a body that is not an object has no fields. */
  predicate Supplied(body: Option<Value>, k: string) {
    var v := Member(body, k);
    v.Some? && Truthy(v.value)
  }

  /** Some product of the catalogue holds `code` (the equality query is non-empty). */
  predicate CodeTaken(products: Products, code: Value) {
    exists id :: id in products && FieldEquals(products[id], CODE_FIELD, code)
  }

  /** A product other than `self` holds `code`. */
  predicate CodeTakenByOther(products: Products, self: Id, code: Value) {
    exists id :: id in products && id != self && FieldEquals(products[id], CODE_FIELD, code)
  }

  /** No two products hold the same truthy `productCode`. */
  predicate UniqueCodes(products: Products) {
    forall a, b :: a in products && b in products && a != b && HasTruthy(products[a], CODE_FIELD)
      ==> !FieldEquals(products[b], CODE_FIELD, products[a][CODE_FIELD])
  }

  /** The audit fields `addProduct` appends after the body. */
  function Stamps(uid: string, now: int): Doc {
    map["createdAt" := Num(now), "updatedAt" := Num(now), "createdBy" := Str(uid)]
  }

  /** `addProduct`: 400 when `name`, `productCode` or `price` is missing or
      falsy; 400 when the code is already taken; otherwise stores
      `{ id, ...body, createdAt, updatedAt, createdBy }` under a fresh id. */
  function AddProduct(products: Products, body: Option<Value>, uid: string, freshId: Id, now: int): (r: Response)
    requires freshId !in products
    ensures r.status == 400 && r.result == Err(MISSING_FIELDS)
      <==> !(Supplied(body, "name") && Supplied(body, CODE_FIELD) && Supplied(body, "price"))
    ensures r.status == 400 && r.result == Err(DUPLICATE_CODE)
      <==> (&& Supplied(body, "name") && Supplied(body, CODE_FIELD) && Supplied(body, "price")
            && CodeTaken(products, body.value.fields[CODE_FIELD]))
    ensures r.status == 201 <==>
      (&& Supplied(body, "name") && Supplied(body, CODE_FIELD) && Supplied(body, "price")
       && !CodeTaken(products, body.value.fields[CODE_FIELD]))
    ensures r.status == 201 || r.status == 400
    ensures r.status == 400 ==> r.products == products
    ensures r.status == 201 ==> r.result.Ok?
    ensures r.status == 201 ==>
      var stored := r.result.value;
      && r.products == products[freshId := stored]
      && body.Some? && body.value.Obj?
      && stored.Keys == body.value.fields.Keys + {"id", "createdAt", "updatedAt", "createdBy"}
      && (forall k :: k in body.value.fields && k !in Stamps(uid, now) ==> stored[k] == body.value.fields[k])
      && ("id" !in body.value.fields ==> stored["id"] == IdValue(freshId))
      && stored["createdAt"] == stored["updatedAt"] == Num(now)
      && stored["createdBy"] == Str(uid)
      && HasTruthy(stored, CODE_FIELD)
  {
    if !(Supplied(body, "name") && Supplied(body, CODE_FIELD) && Supplied(body, "price")) then
      Response(400, Err(MISSING_FIELDS), products)
    else
      var fields := body.value.fields;
      if CodeTaken(products, fields[CODE_FIELD]) then
        Response(400, Err(DUPLICATE_CODE), products)
      else
        var stored := WithId(freshId, fields) + Stamps(uid, now);
        Response(201, Ok(stored), products[freshId := stored])
  }

  /** Adding keeps truthy codes unique. */
  lemma AddPreservesUniqueCodes(products: Products, body: Option<Value>, uid: string, freshId: Id, now: int)
    requires freshId !in products && UniqueCodes(products)
    ensures UniqueCodes(AddProduct(products, body, uid, freshId, now).products)
  {
    var r := AddProduct(products, body, uid, freshId, now);
    if r.status == 201 {
      var fields := body.value.fields;
      var p := r.products;
      assert p[freshId][CODE_FIELD] == fields[CODE_FIELD];
      forall a, b | a in p && b in p && a != b && HasTruthy(p[a], CODE_FIELD)
        ensures !FieldEquals(p[b], CODE_FIELD, p[a][CODE_FIELD])
      {
        if a == freshId {
          assert !FieldEquals(products[b], CODE_FIELD, fields[CODE_FIELD]);
        } else if b == freshId {
          assert !FieldEquals(products[a], CODE_FIELD, fields[CODE_FIELD]);
        }
      }
    }
  }

  /** `updateProduct`: 404 for an unknown id; 400 when a truthy new code is
      held by another product; otherwise merges the body into the stored
      fields and bumps `updatedAt`. */
  function UpdateProduct(products: Products, productId: Id, body: Doc, now: int): (r: Response)
    ensures r.status == 404 <==> productId !in products
    ensures r.status == 400 <==>
      (productId in products && HasTruthy(body, CODE_FIELD) && CodeTakenByOther(products, productId, body[CODE_FIELD]))
    ensures r.status in {200, 400, 404}
    ensures r.status != 200 ==> r.products == products && r.result.Err?
    ensures r.status == 404 ==> r.result == Err(NOT_FOUND)
    ensures r.status == 400 ==> r.result == Err(DUPLICATE_CODE)
    ensures r.status == 200 ==> productId in r.products
    ensures r.status == 200 ==>
      var stored := r.products[productId];
      && r.products.Keys == products.Keys
      && (forall id :: id in products && id != productId ==> r.products[id] == products[id])
      && stored.Keys == products[productId].Keys + body.Keys + {"updatedAt"}
      && (forall k :: k in body && k != "updatedAt" ==> stored[k] == body[k])
      && (forall k :: k in products[productId] && k !in body && k != "updatedAt" ==> stored[k] == products[productId][k])
      && stored["updatedAt"] == Num(now)
      && r.result == Ok(WithId(productId, stored))
  {
    if productId !in products then
      Response(404, Err(NOT_FOUND), products)
    else if HasTruthy(body, CODE_FIELD) && CodeTakenByOther(products, productId, body[CODE_FIELD]) then
      Response(400, Err(DUPLICATE_CODE), products)
    else
      var stored := products[productId] + body + map["updatedAt" := Num(now)];
      Response(200, Ok(WithId(productId, stored)), products[productId := stored])
  }

  /** Updating keeps truthy codes unique, including an update that blanks
      the code or leaves it out. */
  lemma UpdatePreservesUniqueCodes(products: Products, productId: Id, body: Doc, now: int)
    requires UniqueCodes(products)
    ensures UniqueCodes(UpdateProduct(products, productId, body, now).products)
  {
    var r := UpdateProduct(products, productId, body, now);
    if r.status == 200 {
      var p := r.products;
      forall a, b | a in p && b in p && a != b && HasTruthy(p[a], CODE_FIELD)
        ensures !FieldEquals(p[b], CODE_FIELD, p[a][CODE_FIELD])
      {
        if a == productId {
          if CODE_FIELD in body {
            assert !FieldEquals(products[b], CODE_FIELD, body[CODE_FIELD]);
          } else {
            assert !FieldEquals(products[b], CODE_FIELD, products[a][CODE_FIELD]);
          }
        } else if b == productId {
          if CODE_FIELD !in body {
            assert !FieldEquals(products[b], CODE_FIELD, products[a][CODE_FIELD]);
          }
        }
      }
    }
  }

  /** Re-submitting a product's own code is not a duplicate. */
  lemma ResubmittingOwnCodeSucceeds(products: Products, productId: Id, body: Doc, now: int)
    requires UniqueCodes(products) && productId in products
    requires HasTruthy(products[productId], CODE_FIELD)
    requires CODE_FIELD in body && body[CODE_FIELD] == products[productId][CODE_FIELD]
    ensures UpdateProduct(products, productId, body, now).status == 200
  {
  }

  /** `deleteProduct`: 404 for an unknown id, else removes exactly that
      product and answers with its id and name. */
  function DeleteProduct(products: Products, productId: Id): (r: Response)
    ensures r.status == 404 <==> productId !in products
    ensures r.status == 404 ==> r.products == products && r.result == Err(NOT_FOUND)
    ensures r.status != 404 ==>
      && r.status == 200
      && r.products.Keys == products.Keys - {productId}
      && (forall id :: id in r.products ==> r.products[id] == products[id])
      && r.result.Ok? && "id" in r.result.value && r.result.value["id"] == IdValue(productId)
      && Lookup(r.result.value, "name") == Lookup(products[productId], "name")
  {
    if productId !in products then
      Response(404, Err(NOT_FOUND), products)
    else
      var name := Lookup(products[productId], "name");
      var summary := map["id" := IdValue(productId)] + (if name.Some? then map["name" := name.value] else map[]);
      Response(200, Ok(summary), products - {productId})
  }

  /** Deleting keeps truthy codes unique. */
  lemma DeletePreservesUniqueCodes(products: Products, productId: Id)
    requires UniqueCodes(products)
    ensures UniqueCodes(DeleteProduct(products, productId).products)
  {
  }

  /** `getProductByCodeWithCredentials`: 404 when no product holds the code,
      otherwise the first holder as `{ id, ...data }`, credentials included. */
  function GetProductByCode(products: Products, code: string): (r: Response)
    ensures r.products == products
    ensures r.status == 404 <==> forall id :: id in products ==> !HasCode(products[id], code)
    ensures r.status == 404 ==> r.result == Err(NOT_FOUND)
    ensures r.status != 404 ==> r.status == 200 && r.result == Ok(GetProductWithCredentials(products, code).value)
  {
    match FindByCode(products, code)
    case None => Response(404, Err(NOT_FOUND), products)
    case Some(id) => Response(200, Ok(WithId(id, products[id])), products)
  }

  /** With unique codes the lookup by code finds THE holder: whichever
      product holds the code is the one returned. */
  lemma LookupByCodeFindsTheHolder(products: Products, code: string, id: Id)
    requires UniqueCodes(products) && code != ""
    requires id in products && HasCode(products[id], code)
    ensures GetProductByCode(products, code).result == Ok(WithId(id, products[id]))
  {
  }

  /** A product just added is what the lookup by its code returns. */
  lemma AddThenLookup(products: Products, body: Option<Value>, uid: string, freshId: Id, now: int, code: string)
    requires freshId !in products && UniqueCodes(products)
    requires AddProduct(products, body, uid, freshId, now).status == 201
    requires body.value.fields[CODE_FIELD] == Str(code)
    ensures var r := AddProduct(products, body, uid, freshId, now);
      GetProductByCode(r.products, code).result == Ok(WithId(freshId, r.result.value))
  {
    var r := AddProduct(products, body, uid, freshId, now);
    AddPreservesUniqueCodes(products, body, uid, freshId, now);
    LookupByCodeFindsTheHolder(r.products, code, freshId);
  }
}

=== FILE: product_service.dfy ===
/** Product lookups by `productCode`, the availability gate, credential
    stripping and the stock-status update. A product is a document in the
    `products` collection; its optional `gameAccount` field is the encrypted
    credential blob. */
module ProductService {
  import opened Wrappers
  import opened Documents

  type Products = map<Id, Doc>

  const CREDENTIALS_FIELD: string := "gameAccount"

  datatype ProductError = ProductNotFound(code: string) {
    function Message(): string { "Product " + code + " not found" }
  }

  /** A product store write together with its result. */
  datatype Written = Written(result: Result<(), ProductError>, products: Products)

  /** `where("productCode", "==", code)`. */
  predicate HasCode(d: Doc, code: string) {
    FieldEquals(d, "productCode", Str(code))
  }

  /** The first product carrying `code`, in id order. */
  function FindByCode(products: Products, code: string): (r: Option<Id>)
    ensures r.None? <==> forall id :: id in products ==> !HasCode(products[id], code)
    ensures r.Some? ==> r.value in products && HasCode(products[r.value], code)
    ensures r.Some? ==> forall id :: id in products && HasCode(products[id], code) ==> r.value <= id
  {
    FirstWhere(products, (d: Doc) => HasCode(d, code))
  }

  /** `getProductWithCredentials`: the first match as `{ id, ...data }`,
      credentials included. */
  function GetProductWithCredentials(products: Products, code: string): (r: Result<Doc, ProductError>)
    ensures r.Err? <==> forall id :: id in products ==> !HasCode(products[id], code)
    ensures r.Err? ==> r.error == ProductNotFound(code)
    ensures r.Ok? ==> var id := FindByCode(products, code).value;
      && r.value.Keys == products[id].Keys + {"id"}
      && (forall k :: k in products[id] ==> r.value[k] == products[id][k])
      && HasCode(r.value, code)
      && ("id" !in products[id] ==> r.value["id"] == IdValue(id))
  {
    match FindByCode(products, code)
    case None => Err(ProductNotFound(code))
    case Some(id) => Ok(WithId(id, products[id]))
  }

  /** `getProduct`: the same record with `gameAccount` removed and every
      other field kept. */
  function GetProduct(products: Products, code: string): (r: Result<Doc, ProductError>)
    ensures r.Err? <==> GetProductWithCredentials(products, code).Err?
    ensures r.Err? ==> r.error == ProductNotFound(code)
    ensures r.Ok? ==> var full := GetProductWithCredentials(products, code).value;
      && CREDENTIALS_FIELD !in r.value
      && r.value.Keys == full.Keys - {CREDENTIALS_FIELD}
      && forall k :: k in r.value ==> r.value[k] == full[k]
  {
    match FindByCode(products, code)
    case None => Err(ProductNotFound(code))
    case Some(id) => Ok(WithId(id, products[id]) - {CREDENTIALS_FIELD})
  }

  /** `isProductAvailable`: `type === "available" && status === "in_stock"`. */
  predicate IsProductAvailable(p: Doc) {
    Lookup(p, "type") == Some(Str("available")) && Lookup(p, "status") == Some(Str("in_stock"))
  }

  /** `getProductCredentials`: `null` unless the blob is present and truthy,
      else the blob unchanged. */
  function GetProductCredentials(p: Doc): (r: Option<Value>)
    ensures r.None? <==> !HasTruthy(p, CREDENTIALS_FIELD)
    ensures r.Some? ==> r.value == p[CREDENTIALS_FIELD] && Truthy(r.value)
  {
    if HasTruthy(p, CREDENTIALS_FIELD) then Some(p[CREDENTIALS_FIELD]) else None
  }

  /** `updateProductStatus`: on the first match, sets `status` and
      `updatedAt` and nothing else; fails when nothing matches. */
  function UpdateProductStatus(products: Products, code: string, status: string, now: int): (w: Written)
    ensures FindByCode(products, code).None? ==> w == Written(Err(ProductNotFound(code)), products)
    ensures FindByCode(products, code).Some? ==> var id := FindByCode(products, code).value;
      && w.result.Ok?
      && w.products.Keys == products.Keys
      && (forall other :: other in products && other != id ==> w.products[other] == products[other])
      && w.products[id].Keys == products[id].Keys + {"status", "updatedAt"}
      && w.products[id]["status"] == Str(status) && w.products[id]["updatedAt"] == Num(now)
      && forall k :: k in products[id] && k != "status" && k != "updatedAt" ==> w.products[id][k] == products[id][k]
  {
    match FindByCode(products, code)
    case None => Written(Err(ProductNotFound(code)), products)
    case Some(id) =>
      Written(Ok(()), products[id := products[id]["status" := Str(status)]["updatedAt" := Num(now)]])
  }

  /** The snapshot handed to order creation never carries credentials. */
  lemma StrippedProductHasNoCredentials(products: Products, code: string)
    requires GetProduct(products, code).Ok?
    ensures GetProductCredentials(GetProduct(products, code).value).None?
  {
  }

  /** Stripping loses nothing but the credentials: when a product has no
      `gameAccount`, both lookups agree. */
  lemma LookupsAgreeWithoutCredentials(products: Products, code: string)
    requires forall id :: id in products ==> CREDENTIALS_FIELD !in products[id]
    ensures GetProduct(products, code) == GetProductWithCredentials(products, code)
  {
    match FindByCode(products, code)
    case None =>
    case Some(id) =>
      assert WithId(id, products[id]) - {CREDENTIALS_FIELD} == WithId(id, products[id]);
  }

  /** Marking a product with any status but "in_stock" takes it off sale:
      the write succeeds exactly when the code is held, the lookups still find
      the same product, and the credential-free snapshot is unavailable. */
  lemma MarkedProductUnavailable(products: Products, code: string, status: string, now: int)
    requires status != "in_stock"
    ensures var w := UpdateProductStatus(products, code, status, now);
      && (w.result.Ok? <==> FindByCode(products, code).Some?)
      && (w.result.Ok? ==>
            && FindByCode(w.products, code) == FindByCode(products, code)
            && GetProduct(w.products, code).Ok?
            && !IsProductAvailable(GetProduct(w.products, code).value))
  {
    var w := UpdateProductStatus(products, code, status, now);
    if w.result.Ok? {
      var id := FindByCode(products, code).value;
      forall x | x in products
        ensures HasCode(products[x], code) == HasCode(w.products[x], code)
      {
        if x == id {
          assert "productCode" in products[x] <==> "productCode" in w.products[x];
        }
      }
      FirstWhereCongruent(products, w.products, (d: Doc) => HasCode(d, code));
      assert FindByCode(w.products, code) == Some(id);
      var snapshot := GetProduct(w.products, code).value;
      assert "status" in w.products[id];
      assert snapshot["status"] == Str(status);
    }
  }
}

=== FILE: text.dfy ===
/** Text utilities with ECMAScript semantics: the `\s` character class,
    `String.prototype.trim`, `startsWith`, `includes`, the decimal rendering of
    `Number.prototype.toString`, and the shared e-mail regular expression
    `^[^\s@]+@[^\s@]+\.[^\s@]+$`. */
module Text {

  /** The characters matched by `\s` in an ECMAScript regular expression;
      `trim` removes exactly these characters. */
  predicate IsWhitespace(c: char) {
    var n := c as int;
    || n == 0x09 || n == 0x0A || n == 0x0B || n == 0x0C || n == 0x0D || n == 0x20
    || n == 0xA0 || n == 0x1680 || (0x2000 <= n <= 0x200A) || n == 0x2028 || n == 0x2029
    || n == 0x202F || n == 0x205F || n == 0x3000 || n == 0xFEFF
  }

  /** `s.trim() === ""`. */
  predicate IsBlank(s: string) {
    forall i :: 0 <= i < |s| ==> IsWhitespace(s[i])
  }

  /** `s.startsWith(p)`. */
  predicate StartsWith(s: string, p: string) {
    |p| <= |s| && s[..|p|] == p
  }

  /** `s.endsWith(p)`. */
  predicate EndsWith(s: string, p: string) {
    |p| <= |s| && s[|s| - |p|..] == p
  }

  /** `s.includes(t)`: `t` occurs in `s` at some position. */
  predicate Contains(s: string, t: string) {
    exists i :: 0 <= i <= |s| && StartsWith(s[i..], t)
  }

  /** An occurrence at a known position. */
  lemma OccursAt(s: string, t: string, i: nat)
    requires i <= |s| && StartsWith(s[i..], t)
    ensures Contains(s, t)
  {
  }

  /** One mismatching character rules out an occurrence at `i`. */
  lemma DiffersAt(s: string, t: string, i: nat, k: nat)
    requires k < |t| && i + k < |s| && s[i + k] != t[k]
    ensures !StartsWith(s[i..], t)
  {
  }

  // ---------------------------------------------------------------------------
  // Decimal rendering of non-negative integers
  // ---------------------------------------------------------------------------

  predicate IsDigit(c: char) { '0' <= c <= '9' }

  predicate AllDigits(s: string) {
    forall i :: 0 <= i < |s| ==> IsDigit(s[i])
  }

  function DigitChar(d: nat): (c: char)
    requires d < 10
    ensures IsDigit(c) && c as int - '0' as int == d
  {
    ('0' as int + d) as char
  }

  function DigitValue(c: char): (d: nat)
    requires IsDigit(c)
    ensures d < 10
  {
    c as int - '0' as int
  }

  /** `n.toString()` for a non-negative integer `n`: most significant digit first,
      no leading zeros. */
  function Decimal(n: nat): (s: string)
    ensures 1 <= |s| && AllDigits(s)
    ensures |s| > 1 ==> s[0] != '0'
    decreases n
  {
    if n < 10 then [DigitChar(n)] else Decimal(n / 10) + [DigitChar(n % 10)]
  }

  /** The number a string of decimal digits denotes. */
  function DecimalValue(s: string): nat
    requires AllDigits(s)
  {
    if s == [] then 0 else DecimalValue(s[..|s| - 1]) * 10 + DigitValue(s[|s| - 1])
  }

  function Pow10(k: nat): (p: nat)
    ensures p >= 1
  {
    if k == 0 then 1 else 10 * Pow10(k - 1)
  }

  /** Reading back a rendered number yields the number. */
  lemma {:induction false} DecimalRoundTrip(n: nat)
    ensures DecimalValue(Decimal(n)) == n
    decreases n
  {
    if n >= 10 {
      DecimalRoundTrip(n / 10);
      var s := Decimal(n);
      assert s[..|s| - 1] == Decimal(n / 10);
    }
  }

  /** Rendering is injective: distinct numbers have distinct renderings. */
  lemma DecimalInjective(m: nat, n: nat)
    requires Decimal(m) == Decimal(n)
    ensures m == n
  {
    DecimalRoundTrip(m);
    DecimalRoundTrip(n);
  }

  /** A number with exactly `k` digits renders to `k` characters. */
  lemma {:induction false} DecimalLength(n: nat, k: nat)
    requires 1 <= k && Pow10(k - 1) <= n < Pow10(k)
    ensures |Decimal(n)| == k
    decreases k
  {
    if k > 1 {
      DecimalLength(n / 10, k - 1);
    }
  }

  // ---------------------------------------------------------------------------
  // The e-mail pattern  ^[^\s@]+@[^\s@]+\.[^\s@]+$
  // ---------------------------------------------------------------------------

  /** `s` matches `^[^\s@]+@[^\s@]+\.[^\s@]+$`, written over positions: the
      string is `A @ B . C` with `A`, `B`, `C` non-empty runs of characters that
      are neither whitespace nor `@`. So `s` holds no whitespace, its only `@`
      is at some `i > 0`, and some `.` sits at a `j` with at least one character
      between `i` and `j` and at least one after `j`. `B` may itself contain
      dots. */
  predicate MatchesEmailPattern(s: string) {
    exists i, j | 0 < i && i + 1 < j < |s| - 1 ::
      && s[i] == '@'
      && s[j] == '.'
      && forall k | 0 <= k < |s| :: !IsWhitespace(s[k]) && (s[k] == '@' ==> k == i)
  }

  /** A single left-to-right scan deciding the e-mail pattern. */
  method ScanEmail(s: string) returns (ok: bool)
    ensures ok <==> MatchesEmailPattern(s)
  {
    var at := -1;       // position of the first '@', or -1
    var clean := true;  // no whitespace and no second '@' so far
    var dot := -1;      // first '.' strictly after at + 1, or -1
    var k := 0;
    while k < |s|
      invariant 0 <= k <= |s|
      invariant at == -1 <==> forall m :: 0 <= m < k ==> s[m] != '@'
      invariant at != -1 ==> 0 <= at < k && s[at] == '@' && forall m :: 0 <= m < at ==> s[m] != '@'
      invariant clean <==> forall m :: 0 <= m < k ==> !IsWhitespace(s[m]) && (s[m] == '@' ==> m == at)
      invariant dot != -1 ==> at != -1 && at + 1 < dot < k && s[dot] == '.'
      invariant dot != -1 ==> forall m :: at + 1 < m < dot ==> s[m] != '.'
      invariant at != -1 && dot == -1 ==> forall m :: at + 1 < m < k ==> s[m] != '.'
    {
      var c := s[k];
      if IsWhitespace(c) {
        clean := false;
      }
      if c == '@' {
        if at == -1 {
          at := k;
        } else {
          clean := false;
        }
      } else if c == '.' && at != -1 && at + 1 < k && dot == -1 {
        dot := k;
      }
      k := k + 1;
    }
    ok := clean && at > 0 && dot != -1 && dot < |s| - 1;
    if ok {
      assert forall k | 0 <= k < |s| :: !IsWhitespace(s[k]) && (s[k] == '@' ==> k == at);
      assert 0 < at && at + 1 < dot < |s| - 1 && s[at] == '@' && s[dot] == '.';
    }
    if MatchesEmailPattern(s) {
      var i, j :| 0 < i && i + 1 < j < |s| - 1 && s[i] == '@' && s[j] == '.'
        && forall k | 0 <= k < |s| :: !IsWhitespace(s[k]) && (s[k] == '@' ==> k == i);
      assert s[i] == '@';
      assert at == i;
      assert s[j] == '.';
      assert dot != -1 && dot <= j;
      assert clean;
    }
  }
}

=== FILE: wrappers.dfy ===
/** Failure-compatible wrappers used throughout the model in place of the
    source's thrown exceptions and `null` returns. */
module Wrappers {

  /** A value that may be absent (`undefined` / `null` in the source). */
  datatype Option<+T> = None | Some(value: T)

  /** The outcome of an operation that either produces a value or fails. */
  datatype Result<+T, +E> = Ok(value: T) | Err(error: E)
}
